=== FILE: README.md ===
# Escampe rules engine and alpha-beta player, modelled in Dafny

This project models two parts of a Java implementation of the board game
Escampe.

The first is the rules engine, `EscampeBoard`. It covers:
- the 6x6 grid of cell characters, the fixed lisère overlay and the
  cross-turn value `lastMoveLisere`;
- move notation ("B1-D1", six squares joined by '/', the pass "E");
- placement validation and application;
- regular-move legality, including the depth-first path search;
- move generation, `play` and `gameOver`.

The second is the search player, `JoueurSuperFort`. It covers:
- fail-soft alpha-beta `minMax` and `findBestMove`;
- the capture-priority part of `evaluate`, with `canCaptureUnicorn`,
  `findUnicorn` and `getPaladins`;
- the breadth-first `findShortestPathLength` and `countAccessibleTiles`;
- the notation and colour helpers.

`Position` and `Direction` are plain datatypes.

The board is an immutable value, so `clone` is the identity. Every
operation is a pure function over that value, and side effects become
returned states:
- `isValidMove` returns its verdict together with the board it leaves
  behind, because validating "E" clears `lastMoveLisere`.
- `play` returns `Err(InvalidMove)` where the Java code throws.

Java's 32-bit `int` is modelled explicitly in `JavaInt`: wrap-around
addition and division truncated toward zero. The players "noir" and
"blanc" are the datatype `Player = Black | White`.

Modules, one per file:

| file | module | models |
|---|---|---|
| position.dfy | Positions | `Position`, `isValid`, `equals`, the row-major square order |
| direction.dfy | Directions | `Direction` and `move` |
| java_int.dfy | JavaInt | 32-bit `int` bounds, wrap-around, `/` |
| outcome.dfy | Outcome | `null` and exceptions as `Option` / `Result` |
| board.dfy | Boards | grid, lisères, `isPlayerPiece`, `gameOver`, `checkInitSide`, piece counts |
| notation.dfy | Notation | `String.split`, `Integer.parseInt`, `parsePosition`, `positionToNotation`, move text |
| path_search.dfy | PathSearch | `isNextPosValid`, `isEndPosValid`, `hasValidPath` / `dfsPathfinding` |
| legality.dfy | Legality | `checkLisereConstraint`, `isValidRegularMove` |
| move_gen.dfy | MoveGen | `possiblesMoves`, `generateMovesFrom` |
| placement.dfy | Placement | `validateInitialPlacement`, `handleInitialPlacement` |
| rules.dfy | Rules | `isValidMove`, `play`, `handleRegularMove` |
| evaluation.dfy | Evaluation | colours, `findUnicorn`, `getPaladins`, `canCaptureUnicorn`, `evaluate`, `countAccessibleTiles` |
| distance.dfy | Distance | `findShortestPathLength` |
| search.dfy | Search | `minMax`, `findBestMove` |

## Model

Paths are relative to the repository root.

| member | source | states |
|---|---|---|
| Positions.Equals | src/escampe/Position.java:12-14 | `equals` is true exactly when both positions are the same value |
| Positions.EqualsIsEquivalence | src/escampe/Position.java:12-14 | `equals` is reflexive, symmetric and transitive |
| Positions.Manhattan | src/escampe/EscampeBoard.java:110 | the Manhattan distance is non-negative and is zero only for the same square |
| Positions.Rank | src/escampe/EscampeBoard.java:168-169 | every on-board square has a row-major index in [0, 36), and the enumeration of squares holds that square at that index |
| Positions.SquaresAreTheBoard | src/escampe/EscampeBoard.java:168-169 | the row-major loops visit 36 on-board squares, each at its own index, and every on-board square is among them |
| Directions.MoveIsUnitStep | src/escampe/Direction.java:4-16 | `move` changes exactly one coordinate by one, so the result is at Manhattan distance 1 |
| Directions.Move | src/escampe/Direction.java:14-16 | `move` changes exactly one coordinate, by one: the column when the row is unchanged, the row (with the column kept) otherwise |
| Directions.MoveThenOppositeReturns | src/escampe/Direction.java:4-16 | UP then DOWN, DOWN then UP, LEFT then RIGHT and RIGHT then LEFT return to the original square |
| Directions.NeighboursAreMoves | src/escampe/Direction.java:4-16 | every square at Manhattan distance 1 is reached by one of the four directions |
| Directions.MoveMayLeaveBoard | src/escampe/Direction.java:14-16 | `move` does not check bounds: UP from A1 leaves the board |
| JavaInt.Wrap | src/escampe/JoueurSuperFort.java:210 | the 32-bit result is congruent to the exact value modulo 2^32, and equal to it when that value is in range |
| JavaInt.Add | src/escampe/JoueurSuperFort.java:210 | Java `+` on `int` is the exact sum when that is in range, and otherwise the sum shifted by 2^32 back into range |
| JavaInt.Div | src/escampe/JoueurSuperFort.java:210 | Java `/` truncates toward zero: the quotient's magnitude is the floor of the magnitudes' quotient, its sign is negative exactly when the operands' signs differ (0 has none), and `MIN_VALUE / -1` wraps to `MIN_VALUE` |
| JavaInt.Quot | src/escampe/JoueurSuperFort.java:210 | the quotient n of naturals x and y > 0 is the one with y * n <= x < y * (n + 1) |
| JavaInt.MaxPlusOneWraps | src/escampe/JoueurSuperFort.java:210 | `Integer.MAX_VALUE + 1` wraps to `Integer.MIN_VALUE` |
| Boards.Opponent | src/escampe/JoueurSuperFort.java:192 | the enemy is the other side |
| Boards.Lisere | src/escampe/EscampeBoard.java:20-30 | every square's lisère lies in {1, 2, 3} |
| Boards.Put | src/escampe/EscampeBoard.java:213-214 | writing a cell changes that cell and no other, and keeps `lastMoveLisere` |
| Boards.NewBoard | src/escampe/EscampeBoard.java:15-18 | a fresh board is all '-' with `lastMoveLisere == -1` |
| Boards.PlayerPieceIsOwnPiece | src/escampe/EscampeBoard.java:242-247 | `isPlayerPiece` holds exactly on the player's unicorn or paladin, and never for both sides on one square |
| Boards.PieceCharsAreTheFourPieces | src/escampe/EscampeBoard.java:242-247 | the piece characters are exactly the unicorns and paladins of the two sides |
| Boards.IsPlayerPiece | src/escampe/EscampeBoard.java:242-247 | a square of the player's holds a piece character, and not one of the opponent's pieces |
| Boards.GameOver | src/escampe/EscampeBoard.java:230-239 | the game is over exactly when no square holds 'N' or no square holds 'B' |
| Boards.GameOverExamples | src/escampe/EscampeBoard.java:230-239 | a fresh board is over; a board holding both unicorns is not |
| Boards.CheckInitSide | src/escampe/EscampeBoard.java:331-342 | "Top" exactly when some Black piece stands in rows 1-2 |
| Boards.CountPut | src/escampe/EscampeBoard.java:213-214 | writing a cell changes the count of a character only through the cell's old and new content |
| Boards.CountZero | src/escampe/EscampeBoard.java:230-239 | a character counts zero exactly when no square holds it |
| Notation.Pieces | src/escampe/EscampeBoard.java:87 | splitting gives separator-free pieces that join back to the input |
| Notation.JavaSplit | src/escampe/EscampeBoard.java:87 | `split` returns separator-free pieces: the whole string when the separator is absent, otherwise the leading pieces up to the last non-empty one, every dropped piece being empty |
| Notation.JavaSplitOfJoin | src/escampe/EscampeBoard.java:251 | `String.split` undoes joining two or more separator-free pieces whose last piece is non-empty |
| Notation.ParseInt | src/escampe/EscampeBoard.java:221 | a parsed value lies in the 32-bit range, and a single digit parses to its value |
| Notation.ParseSquare | src/escampe/EscampeBoard.java:218-223 | a parsed square is on the board, and its column is the first character's distance from 'A' |
| Notation.SquareName | src/escampe/EscampeBoard.java:225-227 | a square's name is a letter A-F and a digit 1-6 that parses back to the square |
| Notation.PositionToNotation | src/escampe/JoueurSuperFort.java:329-338 | a name is produced exactly for on-board coordinates, and it parses back to them |
| Notation.NotationRoundTrip | src/escampe/JoueurSuperFort.java:329-355 | `notationToPosition(positionToNotation(row, col))` gives (row, col) on the board; off the board there is no name |
| Notation.ShortTokenIsSquareName | src/escampe/JoueurSuperFort.java:340-355 | a two-character token that parses is exactly the name of the square it parses to |
| Notation.StepName | src/escampe/EscampeBoard.java:189 | a move's text has five characters with '-' in the middle and no '/' |
| Notation.ParseStep | src/escampe/EscampeBoard.java:87-92 | a parsed move has both squares on the board |
| Notation.StepRoundTrip | src/escampe/EscampeBoard.java:87-92 | parsing the text of a move gives the move back |
| PathSearch.IsEndPosValid | src/escampe/EscampeBoard.java:121-126 | a unicorn lands only on '-'; a paladin lands on '-' or on the enemy unicorn; a non-piece is unconstrained |
| PathSearch.IsNextPosValid | src/escampe/EscampeBoard.java:117-119 | a square may be passed through exactly when it holds '-', so never one holding a piece |
| PathSearch.EndRejectsOwnSquare | src/escampe/EscampeBoard.java:121-126 | no piece may land on a square holding its own kind, so start = end is always rejected |
| PathSearch.PathFrom | src/escampe/EscampeBoard.java:136-159 | a search with value-compared visited squares reaches only on-board squares that are empty or acceptable as the end square |
| PathSearch.PathFromAsWritten | src/escampe/EscampeBoard.java:136-159 | the search as Java runs it reaches only on-board squares that are empty or acceptable as the end square |
| PathSearch.HasValidPath | src/escampe/EscampeBoard.java:129-134 | a path found from the start, with the start visited, is also found by the search as Java runs it |
| PathSearch.PathIsWalk | src/escampe/EscampeBoard.java:136-159 | a path found with visited squares excluded is also found when nothing is excluded |
| PathSearch.VisitedSetRedundant | src/escampe/EscampeBoard.java:129-159 | for at most three steps from a piece, the identity-compared visited set (which excludes nothing) and a value-compared one give the same answer |
| PathSearch.OccupiedTargetNeedsFullWalk | src/escampe/EscampeBoard.java:136-159 | the search reaches an occupied square only by a walk of exactly the allotted number of hops |
| PathSearch.FullWalkIsFound | src/escampe/EscampeBoard.java:136-159 | every walk of exactly the allotted hops that passes the square tests is found |
| PathSearch.FullWalkDistance | src/escampe/EscampeBoard.java:141-147 | a walk of k hops ends within Manhattan distance k, at a distance of the same parity as k |
| PathSearch.AdjacentEmptySquareIsReached | src/escampe/EscampeBoard.java:138-153 | an empty neighbour is reached on the first hop whatever the number of steps allotted |
| Legality.IsValidRegularMove | src/escampe/EscampeBoard.java:98-115 | a legal move starts on a piece and ends elsewhere |
| Legality.CheckLisereConstraint | src/escampe/EscampeBoard.java:161-163 | the constraint holds only when no lisère is pending (-1) or the pending lisère is one of 1, 2, 3 and matches the start square |
| Legality.RegularMoveRules | src/escampe/EscampeBoard.java:98-115 | a legal move starts on the player's own piece, on a square whose lisère matches a pending constraint, ends within the start's lisère, and ends on '-' (or, for a paladin, on the enemy unicorn) |
| Legality.ValidMoveAsWritten | src/escampe/EscampeBoard.java:98-134 | legality is the same whether the visited set compares squares by value or by identity |
| Legality.CaptureNeedsFullWalk | src/escampe/EscampeBoard.java:136-159 | a move onto an occupied square is legal exactly when a walk of precisely lisère-many hops reaches it, and its distance then has the lisère's parity |
| Legality.ShortMoveAccepted | src/escampe/EscampeBoard.java:105-114 | stepping onto an empty neighbour is legal whatever the start's lisère |
| MoveGen.MovesFrom | src/escampe/EscampeBoard.java:178-193 | the moves from one square are exactly the legal ones to candidate ends at distance equal to its lisère |
| MoveGen.MovesAt | src/escampe/EscampeBoard.java:168-173 | the moves generated from one square are exactly the listed moves from it: none unless it holds the player's piece |
| MoveGen.MovesOf | src/escampe/EscampeBoard.java:166-176 | every move generated from the candidate starts is listed-legal |
| MoveGen.MovesOfComplete | src/escampe/EscampeBoard.java:166-176 | every listed-legal move from a candidate start is generated |
| MoveGen.PossibleMoves | src/escampe/EscampeBoard.java:166-193 | `possiblesMoves` lists exactly the legal moves of the player whose length equals the start's lisère, from the player's own pieces |
| MoveGen.ShortMovesNotGenerated | src/escampe/EscampeBoard.java:183-188 | a move shorter than its start's lisère is never listed, though it may be legal |
| MoveGen.GeneratedMovesBelongToPlayer | src/escampe/EscampeBoard.java:166-176 | a move listed for one player is never listed for the other |
| Placement.ParseSquares | src/escampe/EscampeBoard.java:255-257 | the tokens parse exactly when each parses, giving on-board squares in order |
| Placement.ParsePlacement | src/escampe/EscampeBoard.java:251-252 | a parsed placement has six on-board squares and its text contains '/' |
| Placement.PlacementSide | src/escampe/EscampeBoard.java:264-285 | placement treats a player string as Black exactly when it is "noir"; any other string is judged by White's rows and writes 'B' and 'b' |
| Placement.ValidatePlacementAsWritten | src/escampe/EscampeBoard.java:250-280 | an accepted placement names six empty on-board squares; Black's lie all in rows 1-2 or all in rows 5-6; White's lie in rows 5-6 exactly when Black stands in rows 1-2 |
| Placement.PlacementAcceptedAsWritten | src/escampe/EscampeBoard.java:250-280 | the text of six on-board squares is accepted as written exactly when they are empty and in the rows the side may fill, repeated or not |
| Placement.ValidateInitialPlacement | src/escampe/EscampeBoard.java:250-280 | a placement accepted with the repeated-square test is also accepted as written, and its six squares are distinct |
| Placement.PutAll | src/escampe/EscampeBoard.java:292-295 | writing a piece on a list of squares changes exactly those squares |
| Placement.HandleInitialPlacement | src/escampe/EscampeBoard.java:282-296 | the unicorn goes on the first square, paladins on the others (a later write wins), and nothing else changes |
| Placement.PutAllCounts | src/escampe/EscampeBoard.java:292-295 | writing a piece on distinct empty squares fills exactly that many |
| Placement.PlacementAddsSixPieces | src/escampe/EscampeBoard.java:282-296 | placing on six distinct empty squares adds one unicorn, five paladins and six pieces |
| Placement.ParseNames | src/escampe/EscampeBoard.java:255-257 | parsing the names of squares gives the squares back |
| Placement.PlacementName | src/escampe/EscampeBoard.java:251-257 | the text of six squares parses back to those squares |
| Placement.PlacementAccepted | src/escampe/EscampeBoard.java:250-280 | the text of six squares is accepted exactly when they are distinct, empty and in the rows the side may fill |
| Placement.RepeatedSquareAcceptedAsWritten | src/escampe/EscampeBoard.java:254-261 | "A1/A1/B1/C1/D1/E1" passes the check as written, fails the intended one, and leaves Black without a unicorn |
| Rules.IsValidMove | src/escampe/EscampeBoard.java:78-96 | "E" is valid exactly when the player has no listed move, and validating it only clears the lisère; a '/'-move is valid exactly when the placement check accepts it (the code's check under `AsWritten`, the distinct-squares one under `DistinctSquares`); any other valid move parses to a legal regular move |
| Rules.ApplyStep | src/escampe/EscampeBoard.java:207-215 | the end square takes the moving piece, the start becomes '-', `lastMoveLisere` becomes the end's lisère, and no other square changes |
| Rules.Play | src/escampe/EscampeBoard.java:196-205 | `play` refuses exactly what `isValidMove` rejects under the same placement rule, and otherwise applies the pass, the placement or the regular move |
| Rules.PassRule | src/escampe/EscampeBoard.java:78-82 | "E" is valid exactly when no move is listed; playing it then only clears the lisère, and otherwise it is refused |
| Rules.StepVerdict | src/escampe/EscampeBoard.java:86-94 | the text of a regular move is judged by `isValidRegularMove` alone, and validating it leaves the board unchanged |
| Rules.PlayRegularMove | src/escampe/EscampeBoard.java:196-215 | a legal move is played as `handleRegularMove`, ends on '-' or the enemy unicorn, and keeps the piece count unless it removes that unicorn |
| Rules.StepCounts | src/escampe/EscampeBoard.java:207-215 | a move changes a character's count only through the captured content and the emptied start |
| Rules.GeneratedMovePlays | src/escampe/EscampeBoard.java:195-215 | every generated move can be played, and playing it is `handleRegularMove` |
| Rules.CaptureEndsGame | src/escampe/EscampeBoard.java:230-239 | capturing the only enemy unicorn ends the game |
| Rules.LisereLinksTurns | src/escampe/EscampeBoard.java:161-163 | after a move, the next legal regular move starts on a square of the lisère just reached |
| Rules.PlayPlacement | src/escampe/EscampeBoard.java:196-200 | an acceptable placement is played by writing the six pieces, adding six pieces |
| Rules.RepeatedPlacementPlayed | src/escampe/EscampeBoard.java:196-200 | playing "A1/A1/B1/C1/D1/E1" for Black on a fresh board succeeds as written and leaves a finished game without a black unicorn; the distinct-squares rule refuses it |
| Evaluation.ColorName | src/escampe/JoueurSuperFort.java:403-405 | the colour string is "blanc" or "noir" |
| Evaluation.EnemyColorName | src/escampe/JoueurSuperFort.java:407-409 | the enemy colour string is the other one of "blanc" and "noir" |
| Evaluation.PlayerNamed | src/escampe/EscampeBoard.java:245-246 | only "noir" and "blanc" name a side, Black and White respectively |
| Evaluation.PlacementSideOfNamed | src/escampe/EscampeBoard.java:264-285 | placement agrees with `isPlayerPiece` on "noir" and "blanc", and places White's pieces for any string naming no side |
| Evaluation.PlayerOfColor | src/escampe/JoueurSuperFort.java:403-405 | colour -1 plays White, any other colour Black |
| Evaluation.ColorNamesAreSides | src/escampe/JoueurSuperFort.java:403-409 | the two colour strings name the player's side and the opponent's |
| Evaluation.FindUnicorn | src/escampe/JoueurSuperFort.java:250-261 | absent exactly when the unicorn is gone; otherwise its square, the first in row-major order |
| Evaluation.GetPaladins | src/escampe/JoueurSuperFort.java:263-275 | exactly the squares holding the player's paladins, each once, in row-major order |
| Evaluation.AnyCapture | src/escampe/JoueurSuperFort.java:241-247 | true exactly when some listed square's move text onto the target is valid |
| Evaluation.CanCaptureUnicorn | src/escampe/JoueurSuperFort.java:233-248 | true when the enemy unicorn is gone; a capture of a unicorn still on the board needs at least one own paladin |
| Evaluation.CanCaptureUnicornIff | src/escampe/JoueurSuperFort.java:233-248 | true exactly when the enemy unicorn is gone or some own paladin may legally move onto it |
| Evaluation.Evaluate | src/escampe/JoueurSuperFort.java:190-200 | a player who can capture the enemy unicorn scores `Integer.MAX_VALUE - 1`; otherwise a player whose unicorn the enemy can capture scores `Integer.MIN_VALUE + 1` (`CanCaptureUnicornIff` gives the capture test its meaning) |
| Evaluation.EvaluateWonBoard | src/escampe/JoueurSuperFort.java:195-196 | a board without the enemy unicorn scores `Integer.MAX_VALUE - 1` |
| Evaluation.EvaluateThreatenedBoard | src/escampe/JoueurSuperFort.java:195-200 | when the enemy can capture the player's unicorn and the player cannot capture the enemy's, the score is `Integer.MIN_VALUE + 1` |
| Evaluation.WeightedPartSeesBothUnicorns | src/escampe/JoueurSuperFort.java:202-204 | the weighted part is reached only with both unicorns on the board |
| Evaluation.ProximityBonus | src/escampe/JoueurSuperFort.java:209-210 | for a reachable distance the bonus is exactly the floor of 50 / (dist + 1); below 50 it lies between 1 and 50 |
| Evaluation.UnreachableEarnsNothing | src/escampe/JoueurSuperFort.java:209-210 | distance `Integer.MAX_VALUE` wraps `dist + 1` and earns 0 |
| Evaluation.AccessibleScoreIsProduct | src/escampe/JoueurSuperFort.java:357-371 | the score over a list of moves is the lisère times the number of them ending on that lisère |
| Evaluation.AccessibleScoreMeaning | src/escampe/JoueurSuperFort.java:357-371 | the score is that product; it is 0 for a lisère outside {1, 2, 3}; it lies in [0, 3 times the number of moves] |
| Evaluation.CountAccessibleTiles | src/escampe/JoueurSuperFort.java:357-371 | `countAccessibleTiles` is `nextLisere` times the number of listed moves ending on that lisère; it is 0 when `nextLisere` is -1, and at most three per listed move |
| Distance.LayerIsWalks | src/escampe/JoueurSuperFort.java:296-311 | level n of the search holds exactly the ends of empty walks of n hops |
| Distance.NextLevel | src/escampe/JoueurSuperFort.java:296-311 | the squares a level adds are on the board, unmarked, empty and next to the level |
| Distance.Search | src/escampe/JoueurSuperFort.java:289-317 | the loop returns `Integer.MAX_VALUE` or a count between the current level and 36 |
| Distance.SearchRound | src/escampe/JoueurSuperFort.java:289-314 | one round finds the target among the new squares, finds no new square, or hands the new squares to the next round |
| Distance.SearchFindsWalks | src/escampe/JoueurSuperFort.java:289-317 | any count the loop reports ends an empty walk of that many hops |
| Distance.NextLevelIsFresh | src/escampe/JoueurSuperFort.java:293-312 | the squares round n adds are exactly those first reached by a walk of n + 1 hops |
| Distance.StableBall | src/escampe/JoueurSuperFort.java:289-317 | once a round adds nothing, no longer walk reaches a new square |
| Distance.SearchFindsShortest | src/escampe/JoueurSuperFort.java:289-317 | the loop finds a target an empty walk of n hops reaches, and reports at most n |
| Distance.ShortestPathLength | src/escampe/JoueurSuperFort.java:277-318 | 0 exactly when start = end; otherwise `Integer.MAX_VALUE` or a length in [1, 36] of an empty walk to the target |
| Distance.ShortestPathIsShortest | src/escampe/JoueurSuperFort.java:277-318 | whenever an empty walk of n hops reaches the target, the reported distance is found and is at most n |
| Distance.OccupiedTargetNeverFound | src/escampe/JoueurSuperFort.java:299-308 | an occupied target square is never found |
| Distance.ShortestPathToPiece | src/escampe/JoueurSuperFort.java:277-318 | the corrected distance counts walks whose last square may be occupied, and agrees with the original on an empty target |
| Distance.AdjacentPieceFound | src/escampe/JoueurSuperFort.java:299-308 | a piece next to the start is at corrected distance 1, while the original reports it unreachable |
| Search.AlphaBeta | src/escampe/JoueurSuperFort.java:152-188 | `minMax` returns `evaluate` at depth 0, `Integer.MIN_VALUE` at a maximising node without moves, and `Integer.MAX_VALUE` at a minimising node without moves (`AlphaBetaIsMinimax` relates it to the unpruned search) |
| Search.FinishedGameIsLeaf | src/escampe/JoueurSuperFort.java:153-155 | on a finished game `minMax` returns `evaluate` at every depth |
| Search.MaxLoop | src/escampe/JoueurSuperFort.java:157-171 | the maximising loop never lowers `maxEval` |
| Search.MinLoop | src/escampe/JoueurSuperFort.java:172-187 | the minimising loop never raises `minEval` |
| Search.FirstChildCounts | src/escampe/JoueurSuperFort.java:157-187 | the first move tried is never pruned: its search value bounds a maximising loop from below and a minimising loop from above |
| Search.ChildSearch | src/escampe/JoueurSuperFort.java:160-164 | one level above the leaves, a child's search value is the evaluation of the board after the move |
| Search.AlphaBetaBounds | src/escampe/JoueurSuperFort.java:152-188 | with any window alpha < beta, the result equals the unpruned minimax value inside the window, is an upper bound at or below alpha, and a lower bound at or above beta |
| Search.MaxLoopBounds | src/escampe/JoueurSuperFort.java:157-171 | the maximising loop, with cut-off at `beta <= alpha`, keeps that fail-soft relation to the maximum over its children |
| Search.MinLoopBounds | src/escampe/JoueurSuperFort.java:172-187 | the minimising loop keeps the fail-soft relation to the minimum over its children |
| Search.ChildBounds | src/escampe/JoueurSuperFort.java:160-164 | the recursive call on a child keeps the fail-soft relation to the child's minimax value |
| Search.MaxStep | src/escampe/JoueurSuperFort.java:164-168 | one child of a maximising node either cuts off with a valid bound or preserves the loop invariant |
| Search.MinStep | src/escampe/JoueurSuperFort.java:179-183 | one child of a minimising node either cuts off with a valid bound or preserves the loop invariant |
| Search.AlphaBetaIsMinimax | src/escampe/JoueurSuperFort.java:152-188 | with the window (MIN_VALUE, MAX_VALUE), `minMax` equals unpruned minimax over the same move lists |
| Search.MoveValue | src/escampe/JoueurSuperFort.java:133-136 | the value `findBestMove` gives a move is the minimax value of the board after it, opponent to move |
| Search.Scores | src/escampe/JoueurSuperFort.java:132-136 | one value per move, each the move's search value |
| Search.BestValue | src/escampe/JoueurSuperFort.java:128-145 | `bestValue` is at least every score, and equal to one of them when there is any |
| Search.WithValue | src/escampe/JoueurSuperFort.java:130-145 | the moves kept are exactly those whose score equals the value |
| Search.NoneAbove | src/escampe/JoueurSuperFort.java:138-141 | no move scores above the best value |
| Search.PickStep | src/escampe/JoueurSuperFort.java:138-144 | a higher score restarts `topMoves` with the move, an equal score appends it, and a lower score changes nothing |
| Search.TopNonEmpty | src/escampe/JoueurSuperFort.java:147-149 | with at least one move, `topMoves` is non-empty |
| Search.PickBest | src/escampe/JoueurSuperFort.java:126-150 | the loop leaves `topMoves` holding exactly the moves of maximal score, and the choice is one of them |
| Search.BestIsMinimax | src/escampe/JoueurSuperFort.java:126-150 | a move of maximal score is a listed move, and no listed move has a higher minimax value |
| Search.FindBest | src/escampe/JoueurSuperFort.java:126-150 | `topMoves` holds exactly the moves of maximal score; the chosen move is among them, is listed, and no listed move has a higher minimax value |
| Search.FindBestMove | src/escampe/JoueurSuperFort.java:126-150 | over `possiblesMoves`, the chosen move is listed and no listed move has a higher minimax value |

## Left out

- File input and output (`setFromFile`, `saveToFile`), console printing (`printBoard`, the log helpers) and the player-protocol methods (`initJoueur`, `mouvementEnnemi`, `declareLeVainqueur`, `getNumJoueur`, `binoName`): they are I/O and hold no game logic.
- `initialPhaseMovement`, `generateRandomInitialPositions` and `generateInitPosition`: they choose an opening by randomness and policy, not by the rules.
- The random tie-break of `findBestMove`: it is the parameter `pick`, and the move chosen is `topMoves[pick % |topMoves|]`, so any element may be chosen.
- The weighted part of `evaluate` (unicorn distances, borders, mobility): it is the parameter `rest: Board -> Int32`. Its parts are modelled separately: `ProximityBonus` for `50 / (dist + 1)` and `CountAccessibleTiles`. `optimizedDistance` is `ShortestPathLength`.
- `TTEntry.java` and `Partie1.java`: a record with no users and an interface without logic.
- `Integer.parseInt`: Unicode digits are not modelled, and an exception (malformed or out-of-range text) is a rejection (`None`).
- Player strings other than "noir" and "blanc": `isPlayerPiece` gives them no piece, so move generation and regular moves treat them as owning nothing (`PlayerNamed`). Placement tests only for "noir" (src/escampe/EscampeBoard.java:264, 284-285), so it judges and writes any other string as White (`PlacementSide`). The model has only the two sides, and a third string is not a separate player.
- `clone`: the board is a value, so a copy is the board itself.
- Search.FindBestMove: requires at least one listed move. With none, `nextInt(0)` on the empty `topMoves` throws; `inGameMovement` calls it only when moves exist and plays "E" otherwise.
- Search.FindBestMove: requires `depth >= 1`. With depth 0 the Java code would call `minMax` at depth -1, which never reaches depth 0, so it stops only on a finished game or at a node whose side to move has no listed move. `inGameMovement` always passes 10.
- Search.PickBest: scores every move before the selection loop rather than inside it. Scoring plays the move on a copy, so the order makes no difference.
- Search: `minMax` and `findBestMove` are written for any move generator that keeps squares on the board. `FindBestMove` runs them with `possiblesMoves` (`BoardMoves`). `Rules.GeneratedMovePlays` shows that `play` applies each generated move as `ApplyStep`.
- The pairwise distinctness of placement squares: the size test at src/escampe/EscampeBoard.java:261 shows that the code means to refuse a repeated square, but it never fires (see Findings). `Rules.IsValidMove` and `Rules.Play` take a `PlacementRule`: `AsWritten` is the Java method, and `DistinctSquares` is the corrected check.
- The field `blackChoseHaut` (src/escampe/EscampeBoard.java:13, 269-271): Black's branch stores it, and White's branch overwrites it from `checkInitSide` before reading it, so the stored value never affects a result.

## Findings

| source | as written | input that shows it | evidently intended | confidence | as-written member | corrected member |
|---|---|---|---|---|---|---|
| src/escampe/EscampeBoard.java:254-261 | `positions` is a `HashSet<Position>`, but `Position` overloads `equals(Position)` and defines no `hashCode`, so the set compares by identity and its size is always 6 | Black plays "A1/A1/B1/C1/D1/E1" on an empty board: it is accepted, and the paladin written on A1 overwrites the unicorn | a repeated square is rejected | not executed | Placement.RepeatedSquareAcceptedAsWritten | Placement.ValidateInitialPlacement |
| src/escampe/JoueurSuperFort.java:299-308 | a square must be empty before it is compared with the target, and `evaluate` only measures to unicorn squares, which are occupied | a paladin next to the enemy unicorn: the distance is `Integer.MAX_VALUE`, `dist + 1` wraps, and the bonus is 0 | the target is found when reached, occupied or not | not executed | Distance.OccupiedTargetNeverFound | Distance.AdjacentPieceFound |

=== FILE: board.dfy ===
/** The state of `EscampeBoard`: a 6x6 grid of cell characters, the fixed
    lisère (step-count) overlay and the cross-turn value `lastMoveLisere`. */
module Boards {
  import opened Positions

  /** The two sides; the Java code names them by the strings "noir" and
      "blanc". */
  datatype Player = Black | White

  function Opponent(p: Player): (q: Player)
    ensures q != p
    ensures (p == Black) <==> (q == White)
  {
    if p == Black then White else Black
  }

  /** 'N' and 'B': the Black and the White unicorn. */
  function UnicornOf(p: Player): char {
    if p == Black then 'N' else 'B'
  }

  /** 'n' and 'b': the Black and the White paladins. */
  function PaladinOf(p: Player): char {
    if p == Black then 'n' else 'b'
  }

  const Empty: char := '-'

  /** The four piece characters; every other character is treated as a
      blocked square by the rules below. */
  predicate IsPieceChar(c: char) {
    c == 'N' || c == 'n' || c == 'B' || c == 'b'
  }

  lemma PieceCharsAreTheFourPieces(c: char)
    ensures IsPieceChar(c) <==> exists p: Player :: c == UnicornOf(p) || c == PaladinOf(p)
  {
    if c == 'N' || c == 'n' {
      assert c == UnicornOf(Black) || c == PaladinOf(Black);
    } else if c == 'B' || c == 'b' {
      assert c == UnicornOf(White) || c == PaladinOf(White);
    }
  }

  type Grid = g: seq<seq<char>> | |g| == 6 && forall r :: 0 <= r < 6 ==> |g[r]| == 6
    witness seq(6, _ => seq(6, _ => '-'))

  /** `board` and `lastMoveLisere`; -1 means that no constraint holds.
      The lisère overlay is the constant `Lisere` below. */
  datatype Board = Board(grid: Grid, lastLisere: int)

  /** The preset lisère layout of `initLiseres`, row 1 first. */
  const LiserePreset: seq<seq<int>> := [
    [1, 2, 2, 3, 1, 2],
    [3, 1, 3, 1, 3, 2],
    [2, 3, 1, 2, 1, 3],
    [2, 1, 3, 2, 3, 1],
    [1, 3, 1, 3, 1, 2],
    [3, 2, 2, 1, 3, 2]
  ]

  /** The lisère of a square: how many steps a piece standing on it moves. */
  function Lisere(p: Position): (n: int)
    requires p.Valid()
    ensures 1 <= n <= 3
  {
    var row := LiserePreset[p.row];
    assert forall c :: 0 <= c < 6 ==> 1 <= row[c] <= 3;
    row[p.col]
  }

  function At(b: Board, p: Position): char
    requires p.Valid()
  {
    b.grid[p.row][p.col]
  }

  /** Writes one cell; nothing else changes. */
  function Put(b: Board, p: Position, c: char): (r: Board)
    requires p.Valid()
    ensures At(r, p) == c
    ensures forall q: Position :: q.Valid() && q != p ==> At(r, q) == At(b, q)
    ensures r.lastLisere == b.lastLisere
  {
    b.(grid := b.grid[p.row := b.grid[p.row][p.col := c]])
  }

  /** The constructor: `initLiseres` then `resetBoard`. */
  function NewBoard(): (b: Board)
    ensures forall p: Position :: p.Valid() ==> At(b, p) == Empty
    ensures b.lastLisere == -1
  {
    Board(seq(6, _ => seq(6, _ => '-')), -1)
  }

  /** `isPlayerPiece`: the square holds the player's unicorn or a paladin. */
  predicate IsPlayerPiece(b: Board, p: Position, player: Player)
    requires p.Valid()
    ensures IsPlayerPiece(b, p, player) ==>
      IsPieceChar(At(b, p)) && At(b, p) != UnicornOf(Opponent(player)) && At(b, p) != PaladinOf(Opponent(player))
  {
    var c := At(b, p);
    (player == Black && (c == 'N' || c == 'n')) || (player == White && (c == 'B' || c == 'b'))
  }

  lemma PlayerPieceIsOwnPiece(b: Board, p: Position, player: Player)
    requires p.Valid()
    ensures IsPlayerPiece(b, p, player) <==> At(b, p) == UnicornOf(player) || At(b, p) == PaladinOf(player)
    ensures IsPlayerPiece(b, p, player) ==> IsPieceChar(At(b, p)) && !IsPlayerPiece(b, p, Opponent(player))
  {
    PieceCharsAreTheFourPieces(At(b, p));
  }

  /** Whether some square at row-major rank k or later holds `c`. */
  function Occurs(b: Board, c: char, k: nat): (r: bool)
    requires k <= 36
    ensures r <==> exists i :: k <= i < 36 && At(b, Squares()[i]) == c
    decreases 36 - k
  {
    if k == 36 then false
    else At(b, Squares()[k]) == c || Occurs(b, c, k + 1)
  }

  /** `gameOver`: some unicorn is missing from the board. */
  function GameOver(b: Board): (r: bool)
    ensures r <==> (forall p: Position :: p.Valid() ==> At(b, p) != 'N') || (forall p: Position :: p.Valid() ==> At(b, p) != 'B')
  {
    OccursAnywhere(b, 'N');
    OccursAnywhere(b, 'B');
    !Occurs(b, 'N', 0) || !Occurs(b, 'B', 0)
  }

  lemma OccursAnywhere(b: Board, c: char)
    ensures Occurs(b, c, 0) <==> exists p: Position :: p.Valid() && At(b, p) == c
  {
    if Occurs(b, c, 0) {
      var i :| 0 <= i < 36 && At(b, Squares()[i]) == c;
      assert Squares()[i].Valid();
    }
    if p: Position :| p.Valid() && At(b, p) == c {
      assert Squares()[Rank(p)] == p;
    }
  }

  /** A board without pieces is over; one with both unicorns is not. */
  lemma GameOverExamples(b: Board, pn: Position, pb: Position)
    requires pn.Valid() && pb.Valid() && At(b, pn) == 'N' && At(b, pb) == 'B'
    ensures GameOver(NewBoard())
    ensures !GameOver(b)
  {
    assert At(NewBoard(), Position(0, 0)) != 'N';
  }

  datatype Side = Top | Bottom

  /** `checkInitSide`: "Top" when a Black piece stands in rows 1-2 (indices
      0 and 1), "Bottom" otherwise. */
  function CheckInitSide(b: Board): (s: Side)
    ensures s == Top <==> exists p: Position :: p.Valid() && p.row < 2 && (At(b, p) == 'N' || At(b, p) == 'n')
  {
    BlackInTopRows(b);
    if BlackFrom(b, 0) then Top else Bottom
  }

  lemma BlackInTopRows(b: Board)
    ensures BlackFrom(b, 0) <==> exists p: Position :: p.Valid() && p.row < 2 && (At(b, p) == 'N' || At(b, p) == 'n')
  {
    if BlackFrom(b, 0) {
      var i :| 0 <= i < 12 && (At(b, Squares()[i]) == 'N' || At(b, Squares()[i]) == 'n');
      assert Squares()[i].Valid() && Squares()[i].row < 2;
    }
    if p: Position :| p.Valid() && p.row < 2 && (At(b, p) == 'N' || At(b, p) == 'n') {
      assert Squares()[Rank(p)] == p && Rank(p) < 12;
    }
  }

  function BlackFrom(b: Board, k: nat): (r: bool)
    requires k <= 12
    ensures r <==> exists i :: k <= i < 12 && (At(b, Squares()[i]) == 'N' || At(b, Squares()[i]) == 'n')
    decreases 12 - k
  {
    if k == 12 then false
    else At(b, Squares()[k]) == 'N' || At(b, Squares()[k]) == 'n' || BlackFrom(b, k + 1)
  }

  /** How many squares of rank k or later hold `c`. */
  function CountFrom(b: Board, c: char, k: nat): (n: nat)
    requires k <= 36
    ensures n <= 36 - k
    decreases 36 - k
  {
    if k == 36 then 0
    else (if At(b, Squares()[k]) == c then 1 else 0) + CountFrom(b, c, k + 1)
  }

  /** Number of squares holding `c`. */
  function Count(b: Board, c: char): nat {
    CountFrom(b, c, 0)
  }

  /** Number of pieces (non-empty squares) on the board. */
  function PieceCount(b: Board): nat {
    36 - Count(b, Empty)
  }

  /** Writing what a square already holds leaves the board as it was. */
  lemma PutSame(b: Board, p: Position)
    requires p.Valid()
    ensures Put(b, p, At(b, p)) == b
  {
    assert b.grid[p.row][p.col := At(b, p)] == b.grid[p.row];
    assert b.grid[p.row := b.grid[p.row]] == b.grid;
  }

  /** Writing one cell changes the count of a character only through the
      old and the new content of that cell. */
  lemma {:induction false} CountFromPut(b: Board, p: Position, c: char, x: char, k: nat)
    requires p.Valid() && k <= 36
    ensures CountFrom(Put(b, p, c), x, k)
         == CountFrom(b, x, k)
          - (if Rank(p) >= k && At(b, p) == x then 1 else 0)
          + (if Rank(p) >= k && c == x then 1 else 0)
    decreases 36 - k
  {
    SquaresAreTheBoard();
    if k < 36 {
      CountFromPut(b, p, c, x, k + 1);
      if Squares()[k] != p {
        assert Rank(Squares()[k]) == k;
      }
    }
  }

  lemma CountPut(b: Board, p: Position, c: char, x: char)
    requires p.Valid()
    ensures Count(Put(b, p, c), x) == Count(b, x) - (if At(b, p) == x then 1 else 0) + (if c == x then 1 else 0)
  {
    CountFromPut(b, p, c, x, 0);
  }

  /** Counts depend on the grid only. */
  lemma {:induction false} SameGridSameCount(b: Board, b': Board, c: char, k: nat)
    requires b.grid == b'.grid && k <= 36
    ensures CountFrom(b, c, k) == CountFrom(b', c, k)
    decreases 36 - k
  {
    if k < 36 {
      SameGridSameCount(b, b', c, k + 1);
    }
  }

  lemma {:induction false} CountFromZero(b: Board, c: char, k: nat)
    requires k <= 36
    ensures CountFrom(b, c, k) == 0 <==> forall i :: k <= i < 36 ==> At(b, Squares()[i]) != c
    decreases 36 - k
  {
    if k < 36 {
      CountFromZero(b, c, k + 1);
    }
  }

  /** A character is counted zero times exactly when no square holds it. */
  lemma CountZero(b: Board, c: char)
    ensures Count(b, c) == 0 <==> forall p: Position :: p.Valid() ==> At(b, p) != c
  {
    CountFromZero(b, c, 0);
    if Count(b, c) == 0 {
      forall p: Position | p.Valid() ensures At(b, p) != c {
        var i := Rank(p);
        assert Squares()[i] == p;
      }
    } else {
      var i :| 0 <= i < 36 && At(b, Squares()[i]) == c;
      SquaresAreValid();
      assert Squares()[i].Valid();
    }
  }
}

=== FILE: direction.dfy ===
/** The four unit steps of `Direction.java`. */
module Directions {
  import opened Positions

  datatype Direction = Up | Down | Left | Right

  /** The order in which `Direction.values()` lists them. */
  const AllDirections: seq<Direction> := [Up, Down, Left, Right]

  function RowDelta(d: Direction): int {
    match d
    case Up => -1
    case Down => 1
    case Left => 0
    case Right => 0
  }

  function ColDelta(d: Direction): int {
    match d
    case Up => 0
    case Down => 0
    case Left => -1
    case Right => 1
  }

  function Opposite(d: Direction): Direction {
    match d
    case Up => Down
    case Down => Up
    case Left => Right
    case Right => Left
  }

  /** `move`: one step, with no bounds check (the result may be off the
      board; callers test `Valid`). */
  function Move(d: Direction, p: Position): (r: Position)
    ensures r.row == p.row ==> r.col == p.col + 1 || r.col == p.col - 1
    ensures r.row != p.row ==> r.col == p.col && (r.row == p.row + 1 || r.row == p.row - 1)
  {
    Position(p.row + RowDelta(d), p.col + ColDelta(d))
  }

  /** A step changes exactly one coordinate, by one. */
  lemma MoveIsUnitStep(d: Direction, p: Position)
    ensures Manhattan(p, Move(d, p)) == 1 && Move(d, p) != p
    ensures var q := Move(d, p);
      (q.row == p.row && (q.col == p.col + 1 || q.col == p.col - 1)) ||
      (q.col == p.col && (q.row == p.row + 1 || q.row == p.row - 1))
  {
  }

  /** UP then DOWN, LEFT then RIGHT (and the converse) lead back. */
  lemma MoveThenOppositeReturns(d: Direction, p: Position)
    ensures Move(Opposite(d), Move(d, p)) == p
  {
  }

  /** The steps are exactly the four neighbours of a square. */
  lemma NeighboursAreMoves(p: Position, q: Position)
    requires Manhattan(p, q) == 1
    ensures exists d :: d in AllDirections && Move(d, q) == p
  {
    if p.row == q.row - 1 {
      assert Move(Up, q) == p;
    } else if p.row == q.row + 1 {
      assert Move(Down, q) == p;
    } else if p.col == q.col - 1 {
      assert Move(Left, q) == p;
    } else {
      assert Move(Right, q) == p;
    }
  }

  /** A step can leave the board: moving UP from the top row does. */
  lemma MoveMayLeaveBoard()
    ensures Position(0, 0).Valid() && !Move(Up, Position(0, 0)).Valid()
  {
  }
}

=== FILE: distance.dfy ===
/** The breadth-first distance of `JoueurSuperFort.findShortestPathLength`,
    level by level: the board squares a search has marked, the current
    level, and the level count. */
module Distance {
  import opened JavaInt
  import opened Positions
  import opened Directions
  import opened Boards

  /** The 36 squares of `Squares`, as a set. */
  function AllSquares(): set<Position> {
    set i | 0 <= i < 36 :: Squares()[i]
  }

  lemma InAllSquares(q: Position)
    requires q.Valid()
    ensures q in AllSquares()
  {
    var k := Rank(q);
    assert Squares()[k] == q;
  }

  lemma {:induction false} SeqSetSize(s: seq<Position>)
    ensures |set x | x in s| <= |s|
    decreases |s|
  {
    if |s| > 0 {
      SeqSetSize(s[1..]);
      assert (set x | x in s) == {s[0]} + (set x | x in s[1..]);
    }
  }

  lemma SubsetSize(a: set<Position>, b: set<Position>)
    requires a <= b
    ensures |a| <= |b|
  {
    assert b == a + (b - a);
  }

  /** There are at most 36 squares. */
  lemma AllSquaresSize()
    ensures |AllSquares()| <= 36
  {
    SquaresAreTheBoard();
    SeqSetSize(Squares());
    SubsetSize(AllSquares(), set x | x in Squares());
  }

  /** Some square one step from `q` (in any of the four directions) is in
      `level`. */
  predicate Touches(q: Position, level: set<Position>) {
    Move(Up, q) in level || Move(Down, q) in level || Move(Left, q) in level || Move(Right, q) in level
  }

  lemma TouchesFrom(p: Position, d: Direction, level: set<Position>)
    requires p in level
    ensures Touches(Move(d, p), level)
  {
    MoveThenOppositeReturns(d, p);
  }

  /** A walk of exactly n hops from `s` to `q` in which every square
      entered lies on the board and is empty. It is defined from its last
      square backwards: `q` is entered from one of its four neighbours. */
  predicate EmptyWalk(b: Board, s: Position, q: Position, n: nat)
    decreases n
  {
    if n == 0 then s == q
    else
      q.Valid() && At(b, q) == Empty &&
      (EmptyWalk(b, s, Move(Up, q), n - 1) || EmptyWalk(b, s, Move(Down, q), n - 1) ||
       EmptyWalk(b, s, Move(Left, q), n - 1) || EmptyWalk(b, s, Move(Right, q), n - 1))
  }

  /** The squares on which an empty walk of exactly n hops from `s` can
      end, level by level. */
  function Layer(b: Board, s: Position, n: nat): set<Position>
    decreases n
  {
    if n == 0 then {s}
    else set q | q in AllSquares() && At(b, q) == Empty && Touches(q, Layer(b, s, n - 1))
  }

  /** The levels hold exactly the ends of the empty walks. */
  lemma {:induction false} LayerIsWalks(b: Board, s: Position, q: Position, n: nat)
    ensures q in Layer(b, s, n) <==> EmptyWalk(b, s, q, n)
    decreases n
  {
    if n > 0 {
      LayerIsWalks(b, s, Move(Up, q), n - 1);
      LayerIsWalks(b, s, Move(Down, q), n - 1);
      LayerIsWalks(b, s, Move(Left, q), n - 1);
      LayerIsWalks(b, s, Move(Right, q), n - 1);
      if q.Valid() {
        InAllSquares(q);
      }
    }
  }

  /** The squares a level adds to the search: on the board, not yet
      marked, touching the level, and empty (`isNextPosValid`). */
  function NextLevel(b: Board, frontier: set<Position>, visited: set<Position>): (next: set<Position>)
    ensures next <= AllSquares() && next !! visited
    ensures forall q :: q in next ==> q.Valid() && At(b, q) == Empty && Touches(q, frontier)
  {
    set q | q in AllSquares() && q !in visited && Touches(q, frontier) && At(b, q) == Empty
  }

  lemma InNextLevel(b: Board, frontier: set<Position>, visited: set<Position>, q: Position)
    requires q.Valid() && q !in visited && Touches(q, frontier) && At(b, q) == Empty
    ensures q in NextLevel(b, frontier, visited)
  {
    InAllSquares(q);
  }

  /** A level inside the walks of n hops adds squares inside the walks of
      n + 1 hops. */
  lemma NextLevelInLayer(b: Board, s: Position, frontier: set<Position>, visited: set<Position>, n: nat)
    requires frontier <= Layer(b, s, n)
    ensures NextLevel(b, frontier, visited) <= Layer(b, s, n + 1)
  {
  }

  /** Marking a non-empty level of unmarked squares leaves fewer
      unmarked squares. */
  lemma Shrinks(visited: set<Position>, next: set<Position>)
    requires visited <= AllSquares() && next <= AllSquares() && next !! visited && next != {}
    ensures visited + next <= AllSquares()
    ensures AllSquares() - (visited + next) < AllSquares() - visited
    ensures |visited| < |visited + next| <= 36
  {
    var q :| q in next;
    assert q in AllSquares() - visited;
    assert |visited + {q}| == |visited| + 1;
    SubsetSize(visited + {q}, visited + next);
    SubsetSize(visited + next, AllSquares());
    AllSquaresSize();
  }

  /** The `while` loop of `findShortestPathLength` from the level
      `frontier` on, whose squares are marked in `visited`; `depth` is the
      count the loop reaches while expanding that level. The target is
      found when it is among the squares the level adds. */
  function Search(b: Board, frontier: set<Position>, visited: set<Position>,
                  end: Position, depth: nat): (r: int)
    requires visited <= AllSquares() && 1 <= depth <= |visited|
    ensures r == MaxValue || depth <= r <= 36
    decreases AllSquares() - visited
  {
    var next := NextLevel(b, frontier, visited);
    SubsetSize(visited, AllSquares());
    AllSquaresSize();
    if end in next then depth
    else if next == {} then MaxValue
    else
      Shrinks(visited, next);
      Search(b, next, visited + next, end, depth + 1)
  }

  /** One round of the loop: the target found among the squares the level
      adds, no square added, or the search carried to the next level. */
  lemma SearchRound(b: Board, frontier: set<Position>, visited: set<Position>, end: Position, depth: nat)
    requires visited <= AllSquares() && 1 <= depth <= |visited|
    ensures var next := NextLevel(b, frontier, visited);
      && (end in next ==> Search(b, frontier, visited, end, depth) == depth)
      && (end !in next && next == {} ==> Search(b, frontier, visited, end, depth) == MaxValue)
      && (end !in next && next != {} ==>
            visited + next <= AllSquares() && 1 <= depth + 1 <= |visited + next| &&
            Search(b, frontier, visited, end, depth) == Search(b, next, visited + next, end, depth + 1))
  {
    var next := NextLevel(b, frontier, visited);
    if end !in next && next != {} {
      Shrinks(visited, next);
    }
  }

  /** Whatever the search reports, short of `Integer.MAX_VALUE`, is the
      length of an empty walk to the target. */
  lemma {:induction false} SearchFindsWalks(b: Board, s: Position, frontier: set<Position>,
                                            visited: set<Position>, end: Position, depth: nat, walked: nat)
    requires visited <= AllSquares() && 1 <= depth <= |visited|
    requires depth == walked + 1 && frontier <= Layer(b, s, walked)
    ensures var r := Search(b, frontier, visited, end, depth); r == MaxValue || end in Layer(b, s, r)
    decreases AllSquares() - visited
  {
    var next := NextLevel(b, frontier, visited);
    SearchRound(b, frontier, visited, end, depth);
    if end in next {
      NextLevelInLayer(b, s, frontier, visited, walked);
    } else if next != {} {
      NextLevelInLayer(b, s, frontier, visited, walked);
      Shrinks(visited, next);
      SearchFindsWalks(b, s, next, visited + next, end, depth + 1, walked + 1);
    }
  }

  // ---------------------------------------------------------------------
  // The search reports the shortest walk

  /** The squares some empty walk of at most n hops from `s` ends on. */
  function Ball(b: Board, s: Position, n: nat): set<Position>
    decreases n
  {
    if n == 0 then {s} else Ball(b, s, n - 1) + Layer(b, s, n)
  }

  /** The squares first reached after exactly n hops: the level the
      search expands in its n-th round. */
  function Fresh(b: Board, s: Position, n: nat): set<Position> {
    if n == 0 then {s} else Ball(b, s, n) - Ball(b, s, n - 1)
  }

  lemma {:induction false} LayerInBall(b: Board, s: Position, q: Position, k: nat, n: nat)
    requires k <= n && q in Layer(b, s, k)
    ensures q in Ball(b, s, n)
    decreases n
  {
    if k < n {
      LayerInBall(b, s, q, k, n - 1);
    }
  }

  lemma {:induction false} BallHasLayer(b: Board, s: Position, q: Position, n: nat) returns (k: nat)
    requires q in Ball(b, s, n)
    ensures k <= n && q in Layer(b, s, k)
    decreases n
  {
    if n == 0 || q in Layer(b, s, n) {
      k := n;
    } else {
      k := BallHasLayer(b, s, q, n - 1);
    }
  }

  /** A square of level n + 1 is empty and entered from a neighbouring
      square of level n. */
  lemma EnteredFrom(b: Board, s: Position, q: Position, n: nat) returns (p: Position)
    requires q in Layer(b, s, n + 1)
    ensures q.Valid() && At(b, q) == Empty && p in Layer(b, s, n) && Touches(q, {p})
  {
    if Move(Up, q) in Layer(b, s, n) {
      p := Move(Up, q);
    } else if Move(Down, q) in Layer(b, s, n) {
      p := Move(Down, q);
    } else if Move(Left, q) in Layer(b, s, n) {
      p := Move(Left, q);
    } else {
      p := Move(Right, q);
    }
  }

  /** An empty square next to a square of level k is in level k + 1. */
  lemma EnterLayer(b: Board, s: Position, q: Position, p: Position, k: nat)
    requires q.Valid() && At(b, q) == Empty && p in Layer(b, s, k) && Touches(q, {p})
    ensures q in Layer(b, s, k + 1)
  {
    InAllSquares(q);
    assert Touches(q, Layer(b, s, k));
  }

  /** A square of level n + 1 that the first n levels do not hold is
      entered from the squares first reached at level n. */
  lemma EnteredFromFresh(b: Board, s: Position, q: Position, n: nat) returns (p: Position)
    requires q in Layer(b, s, n + 1) && q !in Ball(b, s, n)
    ensures p in Fresh(b, s, n) && Touches(q, {p})
  {
    p := EnteredFrom(b, s, q, n);
    LayerInBall(b, s, p, n, n);
    if n > 0 && p in Ball(b, s, n - 1) {
      NeighbourReached(b, s, n - 1, p, q);
      assert false;
    }
  }

  /** An empty square next to the first k levels is in the first k + 1. */
  lemma NeighbourReached(b: Board, s: Position, k: nat, p: Position, q: Position)
    requires p in Ball(b, s, k) && q.Valid() && At(b, q) == Empty && Touches(q, {p})
    ensures q in Ball(b, s, k + 1)
  {
    var j := BallHasLayer(b, s, p, k);
    EnterLayer(b, s, q, p, j);
    LayerInBall(b, s, q, j + 1, k + 1);
  }

  /** The squares a round adds are exactly those first reached in the
      next level. */
  lemma NextLevelIsFresh(b: Board, s: Position, n: nat)
    ensures NextLevel(b, Fresh(b, s, n), Ball(b, s, n)) == Fresh(b, s, n + 1)
  {
    var frontier := Fresh(b, s, n);
    var visited := Ball(b, s, n);
    var next := NextLevel(b, frontier, visited);
    assert frontier <= Layer(b, s, n);
    forall q | q in next
      ensures q in Fresh(b, s, n + 1)
    {
      NextLevelInLayer(b, s, frontier, visited, n);
    }
    forall q | q in Fresh(b, s, n + 1)
      ensures q in next
    {
      var p := EnteredFromFresh(b, s, q, n);
      assert Touches(q, frontier);
      InNextLevel(b, frontier, visited, q);
    }
  }

  /** Once a round adds nothing, no later level reaches a new square. */
  lemma {:induction false} StableBall(b: Board, s: Position, w: nat, m: nat, q: Position)
    requires Fresh(b, s, w + 1) == {} && w < m && q in Layer(b, s, m)
    ensures q in Ball(b, s, w)
    decreases m
  {
    var p := EnteredFrom(b, s, q, m - 1);
    if m - 1 > w {
      StableBall(b, s, w, m - 1, p);
    } else {
      LayerInBall(b, s, p, m - 1, w);
    }
    StepStaysInBall(b, s, w, p, q);
  }

  /** Once a round adds nothing, an empty square next to the first w
      levels is in them. */
  lemma StepStaysInBall(b: Board, s: Position, w: nat, p: Position, q: Position)
    requires Fresh(b, s, w + 1) == {} && p in Ball(b, s, w)
    requires q.Valid() && At(b, q) == Empty && Touches(q, {p})
    ensures q in Ball(b, s, w)
  {
    var k := BallHasLayer(b, s, p, w);
    EnterLayer(b, s, q, p, k);
    if k < w {
      LayerInBall(b, s, q, k + 1, w);
    } else {
      LayerInBall(b, s, q, w + 1, w + 1);
      assert q !in Fresh(b, s, w + 1);
    }
  }

  /** The squares first reached at level w + 1 complete the first w
      levels to the first w + 1. */
  lemma BallGrows(b: Board, s: Position, w: nat)
    ensures Ball(b, s, w) + Fresh(b, s, w + 1) == Ball(b, s, w + 1)
  {
  }

  /** A round that neither finds the target nor comes up empty hands the
      next level on, and the target is still ahead. */
  lemma NextRound(b: Board, s: Position, end: Position, walked: nat, n: nat)
    requires Ball(b, s, walked) <= AllSquares() && 1 <= walked + 1 <= |Ball(b, s, walked)|
    requires end !in Ball(b, s, walked) && end in Layer(b, s, n) && walked < n
    requires end !in NextLevel(b, Fresh(b, s, walked), Ball(b, s, walked))
    ensures Ball(b, s, walked + 1) <= AllSquares() && 1 <= walked + 2 <= |Ball(b, s, walked + 1)|
    ensures end !in Ball(b, s, walked + 1) && walked + 1 < n
    ensures AllSquares() - Ball(b, s, walked + 1) < AllSquares() - Ball(b, s, walked)
    ensures Search(b, Fresh(b, s, walked), Ball(b, s, walked), end, walked + 1)
         == Search(b, Fresh(b, s, walked + 1), Ball(b, s, walked + 1), end, walked + 1 + 1)
  {
    var frontier := Fresh(b, s, walked);
    var visited := Ball(b, s, walked);
    var next := NextLevel(b, frontier, visited);
    NextLevelIsFresh(b, s, walked);
    BallGrows(b, s, walked);
    if next == {} {
      StableBall(b, s, walked, n, end);
      assert false;
    }
    if n == walked + 1 {
      LayerInBall(b, s, end, n, n);
      assert false;
    }
    Shrinks(visited, next);
    SearchRound(b, frontier, visited, end, walked + 1);
  }

  /** A round that finds the target reports its own count. */
  lemma FoundRound(b: Board, frontier: set<Position>, visited: set<Position>, end: Position, depth: nat)
    requires visited <= AllSquares() && 1 <= depth <= |visited|
    requires end in NextLevel(b, frontier, visited)
    ensures Search(b, frontier, visited, end, depth) == depth <= 36
  {
    SubsetSize(visited, AllSquares());
    AllSquaresSize();
  }

  /** From the round that expands level `walked`, the search finds a
      target that an empty walk of n > walked hops reaches, and reports
      at most n. */
  lemma {:induction false} SearchFindsShortest(b: Board, s: Position, end: Position, walked: nat, n: nat)
    requires Ball(b, s, walked) <= AllSquares() && 1 <= walked + 1 <= |Ball(b, s, walked)|
    requires end !in Ball(b, s, walked) && end in Layer(b, s, n) && walked < n
    ensures var r := Search(b, Fresh(b, s, walked), Ball(b, s, walked), end, walked + 1);
      r != MaxValue && r <= n
    decreases AllSquares() - Ball(b, s, walked)
  {
    if end in NextLevel(b, Fresh(b, s, walked), Ball(b, s, walked)) {
      FoundRound(b, Fresh(b, s, walked), Ball(b, s, walked), end, walked + 1);
    } else {
      NextRound(b, s, end, walked, n);
      SearchFindsShortest(b, s, end, walked + 1, n);
    }
  }

  /** `findShortestPathLength(board, start, end)` as written: 0 when the
      squares coincide, otherwise the length of a walk over empty squares
      that ends on `end`, or `Integer.MAX_VALUE`. Because `end` must pass
      the emptiness test before it is compared, an occupied target is never
      found. */
  function ShortestPathLength(b: Board, start: Position, end: Position): (r: int)
    requires start.Valid()
    ensures r == 0 <==> start == end
    ensures r != 0 && r != MaxValue ==> 1 <= r <= 36 && EmptyWalk(b, start, end, r)
  {
    if start == end then 0
    else
      InAllSquares(start);
      var r := Search(b, {start}, {start}, end, 1);
      SearchFindsWalks(b, start, {start}, {start}, end, 1, 0);
      LayerIsWalks(b, start, end, r);
      r
  }

  /** Every empty walk from the start to the target is at least as long as
      the distance reported: the search reports the shortest one. */
  lemma ShortestPathIsShortest(b: Board, start: Position, end: Position, n: nat)
    requires start.Valid() && start != end && EmptyWalk(b, start, end, n)
    ensures ShortestPathLength(b, start, end) != MaxValue
    ensures ShortestPathLength(b, start, end) <= n
  {
    LayerIsWalks(b, start, end, n);
    InAllSquares(start);
    SearchFromStart(b, start, end, n);
    assert ShortestPathLength(b, start, end) == Search(b, {start}, {start}, end, 1);
  }

  /** The search from the start alone finds a target that an empty walk of
      n hops reaches, within n rounds. */
  lemma SearchFromStart(b: Board, start: Position, end: Position, n: nat)
    requires start.Valid() && start != end && end in Layer(b, start, n)
    requires {start} <= AllSquares()
    ensures Search(b, {start}, {start}, end, 1) != MaxValue
    ensures Search(b, {start}, {start}, end, 1) <= n
  {
    var w: nat := 0;
    FirstLevel(b, start, w);
    SearchFindsShortest(b, start, end, w, n);
    var frontier, visited, depth := Fresh(b, start, w), Ball(b, start, w), w + 1;
    assert frontier == {start} && visited == {start} && depth == 1;
    assert Search(b, frontier, visited, end, depth) == Search(b, {start}, {start}, end, 1);
  }

  /** Level 0 is the start alone, and the search begins by expanding it. */
  lemma FirstLevel(b: Board, start: Position, w: nat)
    requires start.Valid() && w == 0
    ensures Ball(b, start, w) == Fresh(b, start, w) == {start}
    ensures Ball(b, start, w) <= AllSquares() && |Ball(b, start, w)| == 1
  {
    InAllSquares(start);
  }

  /** Evaluation only measures to a unicorn's square, which is occupied:
      the search never finds it. */
  lemma OccupiedTargetNeverFound(b: Board, start: Position, end: Position)
    requires start.Valid() && end.Valid() && start != end && At(b, end) != Empty
    ensures ShortestPathLength(b, start, end) == MaxValue
  {
  }

  // ---------------------------------------------------------------------
  // The search the evaluation meant: the target may be occupied

  /** The distance from `start` to the piece on `end`: the search above,
      with the target compared before its emptiness, is the search over the
      board on which the target square counts as empty. */
  function ShortestPathToPiece(b: Board, start: Position, end: Position): (r: int)
    requires start.Valid()
    ensures r == 0 <==> start == end
    ensures end.Valid() && r != 0 && r != MaxValue ==> 1 <= r <= 36 && EmptyWalk(Put(b, end, Empty), start, end, r)
    ensures end.Valid() && At(b, end) == Empty ==> r == ShortestPathLength(b, start, end)
  {
    if end.Valid() then
      PutSame(b, end);
      ShortestPathLength(Put(b, end, Empty), start, end)
    else ShortestPathLength(b, start, end)
  }

  /** A piece next to the start is one hop away, occupied or not, while the
      search as written reports it unreachable when it is occupied. */
  lemma AdjacentPieceFound(b: Board, start: Position, d: Direction)
    requires start.Valid() && Move(d, start).Valid()
    ensures ShortestPathToPiece(b, start, Move(d, start)) == 1
    ensures At(b, Move(d, start)) != Empty ==> ShortestPathLength(b, start, Move(d, start)) == MaxValue
  {
    var end := Move(d, start);
    MoveIsUnitStep(d, start);
    InAllSquares(start);
    InAllSquares(end);
    TouchesFrom(start, d, {start});
    InNextLevel(Put(b, end, Empty), {start}, {start}, end);
  }
}

=== FILE: evaluation.dfy ===
/** The board queries and the capture-priority part of the static
    evaluation of `JoueurSuperFort`: `findUnicorn`, `getPaladins`,
    `canCaptureUnicorn`, `evaluate`, `countAccessibleTiles` and the colour
    helpers. */
module Evaluation {
  import opened Outcome
  import opened JavaInt
  import opened Positions
  import opened Boards
  import opened Notation
  import opened Legality
  import opened MoveGen
  import opened Placement
  import opened Rules

  // ---------------------------------------------------------------------
  // Colours

  /** `getCouleurString`: the colour code -1 is White ("blanc"), any other
      code Black ("noir"). */
  function ColorName(color: int): (s: string)
    ensures s == "blanc" || s == "noir"
  {
    if color == -1 then "blanc" else "noir"
  }

  /** `getCouleurEnnemiString`. */
  function EnemyColorName(color: int): (s: string)
    ensures s == "blanc" || s == "noir"
    ensures s != ColorName(color)
  {
    if color == -1 then "noir" else "blanc"
  }

  /** How `isPlayerPiece` reads a player string: only "noir" and "blanc"
      own pieces. (Placement reads it differently: `PlacementSide`.) */
  function PlayerNamed(s: string): (r: Option<Player>)
    ensures r == Some(Black) <==> s == "noir"
    ensures r == Some(White) <==> s == "blanc"
  {
    if s == "noir" then Some(Black) else if s == "blanc" then Some(White) else None
  }

  /** Placement and `isPlayerPiece` agree on "noir" and "blanc"; a string
      naming no side still places White's pieces. */
  lemma PlacementSideOfNamed(s: string)
    ensures PlayerNamed(s).Some? ==> PlacementSide(s) == PlayerNamed(s).value
    ensures PlayerNamed(s).None? ==> PlacementSide(s) == White
  {
  }

  /** The side a colour code plays. */
  function PlayerOfColor(color: int): (p: Player)
    ensures p == White <==> color == -1
  {
    if color == -1 then White else Black
  }

  /** The two colour strings name the player and the opponent. */
  lemma ColorNamesAreSides(color: int)
    ensures PlayerNamed(ColorName(color)) == Some(PlayerOfColor(color))
    ensures PlayerNamed(EnemyColorName(color)) == Some(Opponent(PlayerOfColor(color)))
  {
  }

  // ---------------------------------------------------------------------
  // Finding pieces

  /** The first square of rank k or later holding `c`. */
  function FirstFrom(b: Board, c: char, k: nat): (r: Option<Position>)
    requires k <= 36
    ensures r.Some? ==> r.value.Valid() && At(b, r.value) == c && k <= Rank(r.value)
    ensures r.Some? ==> forall i :: k <= i < Rank(r.value) ==> At(b, Squares()[i]) != c
    ensures r.None? <==> forall i :: k <= i < 36 ==> At(b, Squares()[i]) != c
    decreases 36 - k
  {
    if k == 36 then None
    else
      SquareAt(k);
      if At(b, Squares()[k]) == c then Some(Squares()[k]) else FirstFrom(b, c, k + 1)
  }

  /** `findUnicorn`: the player's unicorn, scanning rows top to bottom and
      each row left to right; `None` (Java's null) when it is gone. */
  function FindUnicorn(b: Board, player: Player): (r: Option<Position>)
    ensures r.None? <==> forall q: Position :: q.Valid() ==> At(b, q) != UnicornOf(player)
    ensures r.Some? ==> r.value.Valid() && At(b, r.value) == UnicornOf(player)
    ensures r.Some? ==> forall q: Position :: q.Valid() && Rank(q) < Rank(r.value) ==> At(b, q) != UnicornOf(player)
  {
    var r := FirstFrom(b, UnicornOf(player), 0);
    FirstSquare(b, UnicornOf(player));
    r
  }

  lemma FirstSquare(b: Board, c: char)
    ensures var r := FirstFrom(b, c, 0);
      (r.None? <==> forall q: Position :: q.Valid() ==> At(b, q) != c) &&
      (r.Some? ==> forall q: Position :: q.Valid() && Rank(q) < Rank(r.value) ==> At(b, q) != c)
  {
    var r := FirstFrom(b, c, 0);
    if r.Some? {
      forall q: Position | q.Valid() && Rank(q) < Rank(r.value) ensures At(b, q) != c {
        assert Squares()[Rank(q)] == q;
      }
    } else {
      forall q: Position | q.Valid() ensures At(b, q) != c {
        assert Squares()[Rank(q)] == q;
      }
    }
    if forall q: Position :: q.Valid() ==> At(b, q) != c {
      forall i | 0 <= i < 36 ensures At(b, Squares()[i]) != c {
        SquareAt(i);
      }
    }
  }

  /** The squares of rank k or later holding `c`, in row-major order. */
  function AllFrom(b: Board, c: char, k: nat): (r: seq<Position>)
    requires k <= 36
    ensures AllValid(r)
    ensures forall i :: 0 <= i < |r| ==> At(b, r[i]) == c && k <= Rank(r[i])
    ensures forall i, j :: 0 <= i < j < |r| ==> Rank(r[i]) < Rank(r[j])
    ensures forall i :: k <= i < 36 && At(b, Squares()[i]) == c ==> Squares()[i] in r
    decreases 36 - k
  {
    if k == 36 then []
    else
      SquareAt(k);
      var rest := AllFrom(b, c, k + 1);
      if At(b, Squares()[k]) == c then [Squares()[k]] + rest else rest
  }

  /** `getPaladins`: every square holding one of the player's paladins, in
      row-major order, each once. */
  function GetPaladins(b: Board, player: Player): (r: seq<Position>)
    ensures AllValid(r)
    ensures forall q: Position :: q in r <==> q.Valid() && At(b, q) == PaladinOf(player)
    ensures forall i, j :: 0 <= i < j < |r| ==> Rank(r[i]) < Rank(r[j])
  {
    var r := AllFrom(b, PaladinOf(player), 0);
    AllSquaresHolding(b, PaladinOf(player));
    r
  }

  lemma AllSquaresHolding(b: Board, c: char)
    ensures forall q: Position :: q.Valid() && At(b, q) == c ==> q in AllFrom(b, c, 0)
  {
    forall q: Position | q.Valid() && At(b, q) == c ensures q in AllFrom(b, c, 0) {
      assert Squares()[Rank(q)] == q;
    }
  }

  // ---------------------------------------------------------------------
  // Capture tests

  /** Whether one of the squares `ps` has a move onto `u` that
      `isValidMove` accepts, trying them in order. */
  function AnyCapture(b: Board, player: Player, ps: seq<Position>, u: Position): (r: bool)
    requires AllValid(ps) && u.Valid()
    ensures r <==> exists i :: 0 <= i < |ps| && IsValidMove(b, StepName(Step(ps[i], u)), player, AsWritten).valid
    decreases |ps|
  {
    if |ps| == 0 then false
    else if IsValidMove(b, StepName(Step(ps[0], u)), player, AsWritten).valid then true
    else
      var r := AnyCapture(b, player, ps[1..], u);
      assert forall i :: 1 <= i < |ps| ==> ps[i] == ps[1..][i - 1];
      r
  }

  /** `canCaptureUnicorn`: true when the enemy unicorn is already gone;
      otherwise whether some paladin of the player has a valid move, in
      move notation, onto the enemy unicorn's square. */
  function CanCaptureUnicorn(b: Board, player: Player): (r: bool)
    ensures FindUnicorn(b, Opponent(player)).None? ==> r
    ensures r && FindUnicorn(b, Opponent(player)).Some? ==> |GetPaladins(b, player)| > 0
  {
    match FindUnicorn(b, Opponent(player))
    case None => true
    case Some(u) => AnyCapture(b, player, GetPaladins(b, player), u)
  }

  /** The capture test in the game's terms: the enemy unicorn is missing,
      or one of the player's paladins may legally move onto it. */
  lemma CanCaptureUnicornIff(b: Board, player: Player)
    ensures CanCaptureUnicorn(b, player) <==>
      FindUnicorn(b, Opponent(player)).None? ||
      exists p: Position :: p.Valid() && At(b, p) == PaladinOf(player) &&
        IsValidRegularMove(b, p, FindUnicorn(b, Opponent(player)).value, player)
  {
    match FindUnicorn(b, Opponent(player))
    case None =>
    case Some(u) =>
      var ps := GetPaladins(b, player);
      if CanCaptureUnicorn(b, player) {
        var i :| 0 <= i < |ps| && IsValidMove(b, StepName(Step(ps[i], u)), player, AsWritten).valid;
        StepVerdict(b, Step(ps[i], u), player, AsWritten);
      }
      forall p: Position | p.Valid() && At(b, p) == PaladinOf(player) && IsValidRegularMove(b, p, u, player)
        ensures CanCaptureUnicorn(b, player)
      {
        var i :| 0 <= i < |ps| && ps[i] == p;
        StepVerdict(b, Step(p, u), player, AsWritten);
      }
  }

  // ---------------------------------------------------------------------
  // evaluate

  /** `evaluate(board, player)`: a winning score when the player can take
      the enemy unicorn, a losing score when the enemy can take the
      player's, and otherwise the weighted positional score `rest` (kept
      abstract). */
  function Evaluate(b: Board, me: Player, rest: Board -> Int32): (v: Int32)
    ensures CanCaptureUnicorn(b, me) ==> v == MaxValue - 1
    ensures !CanCaptureUnicorn(b, me) && CanCaptureUnicorn(b, Opponent(me)) ==> v == MinValue + 1
  {
    if CanCaptureUnicorn(b, me) then MaxValue - 1
    else if CanCaptureUnicorn(b, Opponent(me)) then MinValue + 1
    else rest(b)
  }

  /** A board without the enemy unicorn is won. */
  lemma EvaluateWonBoard(b: Board, me: Player, rest: Board -> Int32)
    requires forall q: Position :: q.Valid() ==> At(b, q) != UnicornOf(Opponent(me))
    ensures Evaluate(b, me, rest) == MaxValue - 1
  {
  }

  /** A board on which the enemy may take the player's unicorn and the
      player may not take the enemy's is lost. */
  lemma EvaluateThreatenedBoard(b: Board, me: Player, rest: Board -> Int32, p: Position)
    requires FindUnicorn(b, Opponent(me)).Some? && FindUnicorn(b, me).Some?
    requires p.Valid() && At(b, p) == PaladinOf(Opponent(me))
    requires IsValidRegularMove(b, p, FindUnicorn(b, me).value, Opponent(me))
    requires forall q: Position :: q.Valid() && At(b, q) == PaladinOf(me) ==>
      !IsValidRegularMove(b, q, FindUnicorn(b, Opponent(me)).value, me)
    ensures Evaluate(b, me, rest) == MinValue + 1
  {
    CanCaptureUnicornIff(b, me);
    CanCaptureUnicornIff(b, Opponent(me));
    assert Opponent(Opponent(me)) == me;
  }

  /** The weighted part is only consulted with both unicorns on the board. */
  lemma WeightedPartSeesBothUnicorns(b: Board, me: Player, rest: Board -> Int32)
    requires !CanCaptureUnicorn(b, me) && !CanCaptureUnicorn(b, Opponent(me))
    ensures Evaluate(b, me, rest) == rest(b)
    ensures FindUnicorn(b, me).Some? && FindUnicorn(b, Opponent(me)).Some?
  {
    assert Opponent(Opponent(me)) == me;
  }

  /** `50 / (dist + 1)` in 32-bit arithmetic, the proximity bonus of a
      paladin. */
  function ProximityBonus(dist: Int32): (v: Int32)
    requires dist != -1
    ensures 0 <= dist < MaxValue ==> v * (dist + 1) <= 50 < (v + 1) * (dist + 1)
    ensures 0 <= dist < 50 ==> 1 <= v <= 50
  {
    var d := Add(dist, 1);
    var v := Div(50, d);
    BonusFloor(dist, d, v);
    v
  }

  /** The proximity bonus is the floor of `50 / (dist + 1)` for every
      reachable distance, and at least 1 below a distance of 50. */
  lemma BonusFloor(dist: Int32, d: Int32, v: Int32)
    requires dist != -1 && d == Add(dist, 1) && d != 0 && v == Div(50, d)
    ensures 0 <= dist < MaxValue ==> v * (dist + 1) <= 50 < (v + 1) * (dist + 1)
    ensures 0 <= dist < 50 ==> 1 <= v <= 50
  {
    if 0 <= dist < MaxValue {
      assert d == dist + 1;
      assert Abs(d) == d && Abs(50) == 50;
      assert v >= 0;
      assert d * v <= 50 < d * (v + 1);
      if dist < 50 {
        assert d * (v + 1) == d * v + d;
      }
    }
  }

  /** An unreachable target (distance `Integer.MAX_VALUE`) wraps
      `dist + 1` to `Integer.MIN_VALUE` and earns no bonus. */
  lemma UnreachableEarnsNothing()
    ensures ProximityBonus(MaxValue) == 0
  {
    MaxPlusOneWraps();
  }

  // ---------------------------------------------------------------------
  // countAccessibleTiles

  /** `countAccessibleTiles` over a list of moves: `nextLisere` for every
      move whose end square has that lisère. The end square is read back
      from the move text, which gives the move's own end square
      (`Notation.StepRoundTrip`). */
  function AccessibleScore(ms: seq<Step>, nextLisere: int): (score: int)
    requires ValidSteps(ms)
    decreases |ms|
  {
    if |ms| == 0 then 0
    else
      var rest := AccessibleScore(ms[1..], nextLisere);
      if nextLisere == Lisere(ms[0].to) then rest + nextLisere else rest
  }

  /** How many of the moves end on a square of lisère `n`. */
  function EndingOn(ms: seq<Step>, n: int): (k: nat)
    requires ValidSteps(ms)
    ensures k <= |ms|
    decreases |ms|
  {
    if |ms| == 0 then 0
    else (if Lisere(ms[0].to) == n then 1 else 0) + EndingOn(ms[1..], n)
  }

  /** `countAccessibleTiles(board, player, nextLisere)`: the mobility score
      is the lisère times the number of listed moves ending on that
      lisère; with no constraint pending (-1) it is zero. */
  function CountAccessibleTiles(b: Board, player: Player, nextLisere: int): (score: int)
    ensures score == nextLisere * EndingOn(PossibleMoves(b, player), nextLisere)
    ensures !(1 <= nextLisere <= 3) ==> score == 0
    ensures 0 <= score <= 3 * |PossibleMoves(b, player)|
  {
    AccessibleScoreMeaning(PossibleMoves(b, player), nextLisere);
    AccessibleScore(PossibleMoves(b, player), nextLisere)
  }

  lemma {:induction false} AccessibleScoreIsProduct(ms: seq<Step>, n: int)
    requires ValidSteps(ms)
    ensures AccessibleScore(ms, n) == n * EndingOn(ms, n)
    decreases |ms|
  {
    if |ms| > 0 {
      AccessibleScoreIsProduct(ms[1..], n);
      var k := EndingOn(ms[1..], n);
      if Lisere(ms[0].to) == n {
        assert n * (1 + k) == n + n * k;
      }
    }
  }

  lemma {:induction false} NoEndOnMissingLisere(ms: seq<Step>, n: int)
    requires ValidSteps(ms) && !(1 <= n <= 3)
    ensures EndingOn(ms, n) == 0
    decreases |ms|
  {
    if |ms| > 0 {
      NoEndOnMissingLisere(ms[1..], n);
    }
  }

  lemma AccessibleScoreMeaning(ms: seq<Step>, n: int)
    requires ValidSteps(ms)
    ensures AccessibleScore(ms, n) == n * EndingOn(ms, n)
    ensures !(1 <= n <= 3) ==> AccessibleScore(ms, n) == 0
    ensures 0 <= AccessibleScore(ms, n) <= 3 * |ms|
  {
    AccessibleScoreIsProduct(ms, n);
    if !(1 <= n <= 3) {
      NoEndOnMissingLisere(ms, n);
    } else {
      var k := EndingOn(ms, n);
      assert n * k <= 3 * k;
    }
  }
}

=== FILE: java_int.dfy ===
/** Java's 32-bit `int`: its bounds, wrap-around addition and truncating
    division, written out over Dafny's unbounded integers. */
module JavaInt {

  const MinValue: int := -0x8000_0000
  const MaxValue: int := 0x7fff_ffff

  type Int32 = x: int | MinValue <= x <= MaxValue

  /** Reduces an integer into the 32-bit range modulo 2^32, as every Java
      `int` operation does. */
  function Wrap(x: int): (r: Int32)
    ensures (r - x) % 0x1_0000_0000 == 0
    ensures MinValue <= x <= MaxValue ==> r == x
  {
    var m := (x - MinValue) % 0x1_0000_0000;
    m + MinValue
  }

  /** Java `a + b` on `int`. */
  function Add(a: Int32, b: Int32): (r: Int32)
    ensures MinValue <= a + b <= MaxValue ==> r == a + b
    ensures a + b > MaxValue ==> r == a + b - 0x1_0000_0000
    ensures a + b < MinValue ==> r == a + b + 0x1_0000_0000
  {
    Wrap(a + b)
  }

  /** Java `a / b` on `int`: the quotient is truncated toward zero, unlike
      Dafny's Euclidean `/`. `MIN_VALUE / -1` wraps to `MIN_VALUE`. */
  function Div(a: Int32, b: Int32): (q: Int32)
    requires b != 0
    ensures Abs(a) < Abs(b) ==> q == 0
    ensures !(a == MinValue && b == -1) ==>
      Abs(b) * Abs(q) <= Abs(a) < Abs(b) * (Abs(q) + 1) &&
      (q != 0 ==> (q < 0 <==> (a < 0) != (b < 0)))
    ensures a == MinValue && b == -1 ==> q == MinValue
  {
    var n: int := Quot(Abs(a), Abs(b));
    var exact: int := if (a < 0) == (b < 0) then n else -n;
    Wrap(exact)
  }

  /** Quotient of natural numbers by repeated subtraction: the largest n
      with y * n <= x. */
  function Quot(x: nat, y: nat): (n: nat)
    requires y > 0
    ensures y * n <= x < y * (n + 1)
    ensures n <= x
    ensures x < y <==> n == 0
    ensures y > 1 && x > 0 ==> n < x
    decreases x
  {
    if x < y then 0
    else
      var n' := Quot(x - y, y);
      assert y * (n' + 1) == y * n' + y;
      assert y * (n' + 2) == y * (n' + 1) + y;
      1 + n'
  }

  /** The magnitude of an integer. */
  function Abs(x: int): (r: nat)
    ensures r == x || r == -x
  {
    if x < 0 then -x else x
  }

  lemma MaxPlusOneWraps()
    ensures Add(MaxValue, 1) == MinValue
  {
  }
}

=== FILE: legality.dfy ===
/** Legality of a regular move: `isValidRegularMove` and
    `checkLisereConstraint` of `EscampeBoard`. */
module Legality {
  import opened Positions
  import opened Directions
  import opened Boards
  import opened PathSearch

  /** `checkLisereConstraint`: no constraint is pending, or the start
      square's lisère equals the lisère the previous move ended on. */
  predicate CheckLisereConstraint(b: Board, start: Position)
    requires start.Valid()
    ensures CheckLisereConstraint(b, start) ==> b.lastLisere == -1 || 1 <= b.lastLisere <= 3
  {
    b.lastLisere == -1 || Lisere(start) == b.lastLisere
  }

  /** `isValidRegularMove`: the start holds the player's piece, the lisère
      constraint holds, the end square is acceptable for that piece, the
      Manhattan distance does not exceed the start's lisère, and the path
      search with that many steps reaches the end. */
  function IsValidRegularMove(b: Board, start: Position, end: Position, player: Player): (ok: bool)
    requires start.Valid() && end.Valid()
    ensures ok ==> start != end
    ensures ok ==> IsPieceChar(At(b, start))
  {
    if !IsPlayerPiece(b, start, player) then false
    else
      PlayerPieceIsOwnPiece(b, start, player);
      EndRejectsOwnSquare(At(b, start));
      CheckLisereConstraint(b, start) &&
      IsEndPosValid(At(b, start), At(b, end)) &&
      Manhattan(start, end) <= Lisere(start) &&
      HasValidPath(b, start, end, Lisere(start))
  }

  /** What a legal move requires, in the game's terms: the player's own
      piece, a start square matching the pending lisère, no farther than
      its lisère, and an end square that is empty, or for a paladin the
      enemy unicorn. */
  lemma RegularMoveRules(b: Board, start: Position, end: Position, player: Player)
    requires start.Valid() && end.Valid() && IsValidRegularMove(b, start, end, player)
    ensures At(b, start) == UnicornOf(player) || At(b, start) == PaladinOf(player)
    ensures b.lastLisere == -1 || b.lastLisere == Lisere(start)
    ensures Manhattan(start, end) <= Lisere(start)
    ensures At(b, start) == UnicornOf(player) ==> At(b, end) == Empty
    ensures At(b, start) == PaladinOf(player) ==>
      At(b, end) == Empty || At(b, end) == UnicornOf(Opponent(player))
    ensures At(b, end) != PaladinOf(Black) && At(b, end) != PaladinOf(White)
  {
    PlayerPieceIsOwnPiece(b, start, player);
  }

  /** The path search ignores how the visited set compares squares: the
      move is judged the same with the Java identity-based set. */
  lemma ValidMoveAsWritten(b: Board, start: Position, end: Position, player: Player)
    requires start.Valid() && end.Valid()
    ensures IsValidRegularMove(b, start, end, player) <==>
      IsPlayerPiece(b, start, player) && CheckLisereConstraint(b, start) &&
      IsEndPosValid(At(b, start), At(b, end)) &&
      Manhattan(start, end) <= Lisere(start) &&
      PathFromAsWritten(b, start, end, Lisere(start), At(b, start))
  {
    PlayerPieceIsOwnPiece(b, start, player);
    if IsPlayerPiece(b, start, player) {
      VisitedSetRedundant(b, start, end, Lisere(start));
    }
  }

  /** Landing on an occupied square (a capture) is legal exactly when a
      walk of precisely lisère-many hops gets there; the Manhattan distance
      then has the parity of the lisère. */
  lemma CaptureNeedsFullWalk(b: Board, start: Position, end: Position, player: Player)
    requires start.Valid() && end.Valid() && At(b, end) != Empty
    ensures IsValidRegularMove(b, start, end, player) <==>
      IsPlayerPiece(b, start, player) && CheckLisereConstraint(b, start) &&
      IsEndPosValid(At(b, start), At(b, end)) &&
      FullWalk(b, start, end, Lisere(start), At(b, start))
    ensures IsValidRegularMove(b, start, end, player) ==>
      (Lisere(start) - Manhattan(start, end)) % 2 == 0
  {
    ValidMoveAsWritten(b, start, end, player);
    var piece := At(b, start);
    var k := Lisere(start);
    if IsValidRegularMove(b, start, end, player) {
      OccupiedTargetNeedsFullWalk(b, start, end, k, piece);
      FullWalkDistance(b, start, end, k, piece);
    }
    if IsPlayerPiece(b, start, player) && CheckLisereConstraint(b, start) &&
       IsEndPosValid(piece, At(b, end)) && FullWalk(b, start, end, k, piece) {
      FullWalkIsFound(b, start, end, k, piece);
      FullWalkDistance(b, start, end, k, piece);
      PlayerPieceIsOwnPiece(b, start, player);
      EndRejectsOwnSquare(piece);
    }
  }

  /** Arriving early counts: moving the player's piece onto an empty
      neighbouring square is legal whatever the start square's lisère. */
  lemma ShortMoveAccepted(b: Board, start: Position, d: Direction, player: Player)
    requires start.Valid() && d in AllDirections && Move(d, start).Valid()
    requires IsPlayerPiece(b, start, player) && CheckLisereConstraint(b, start)
    requires At(b, Move(d, start)) == Empty
    ensures IsValidRegularMove(b, start, Move(d, start), player)
  {
    AdjacentEmptySquareIsReached(b, start, d, Lisere(start));
  }
}

=== FILE: move_gen.dfy ===
/** Move generation: `possiblesMoves` and `generateMovesFrom` of
    `EscampeBoard`. */
module MoveGen {
  import opened Positions
  import opened Boards
  import opened Notation
  import opened Legality

  /** Both squares of every move are on the board. */
  predicate ValidSteps(ms: seq<Step>) {
    forall i :: 0 <= i < |ms| ==> ms[i].from.Valid() && ms[i].to.Valid()
  }

  /** The moves `possiblesMoves` lists: legal, and exactly as long as the
      start square's lisère. */
  predicate Listed(b: Board, player: Player, s: Position, e: Position) {
    s.Valid() && e.Valid() && Manhattan(s, e) == Lisere(s) && IsValidRegularMove(b, s, e, player)
  }

  /** `generateMovesFrom`, restricted to the candidate ends `ends`: the
      moves from `s` to a square at distance exactly lisère(s) that
      `isValidRegularMove` accepts, in the order of `ends`. */
  function MovesFrom(b: Board, player: Player, s: Position, ends: seq<Position>): (r: seq<Step>)
    requires s.Valid() && AllValid(ends)
    ensures ValidSteps(r)
    ensures forall m :: m in r ==> m.from == s && m.to in ends && Listed(b, player, s, m.to)
    ensures forall e :: e in ends && Listed(b, player, s, e) ==> Step(s, e) in r
    decreases |ends|
  {
    if |ends| == 0 then []
    else
      var e := ends[0];
      var here := if Listed(b, player, s, e) then [Step(s, e)] else [];
      here + MovesFrom(b, player, s, ends[1..])
  }

  /** `possiblesMoves`, restricted to the candidate starts `starts`. */
  function MovesOf(b: Board, player: Player, starts: seq<Position>): (r: seq<Step>)
    requires AllValid(starts)
    ensures ValidSteps(r)
    ensures forall m :: m in r ==> m.from in starts && Listed(b, player, m.from, m.to)
    decreases |starts|
  {
    if |starts| == 0 then []
    else
      var here := MovesAt(b, player, starts[0]);
      var rest := MovesOf(b, player, starts[1..]);
      JoinMoves(b, player, starts, here, rest);
      here + rest
  }

  /** The moves `possiblesMoves` generates from one start square: those
      of `generateMovesFrom` when the square holds the player's piece,
      none otherwise. They are exactly the listed moves from that square. */
  function MovesAt(b: Board, player: Player, s: Position): (r: seq<Step>)
    requires s.Valid()
    ensures ValidSteps(r)
    ensures forall m :: m in r ==> m.from == s && Listed(b, player, m.from, m.to)
    ensures forall e :: Listed(b, player, s, e) ==> Step(s, e) in r
  {
    SquaresAllValid();
    ListedFromSquares(b, player, s);
    if IsPlayerPiece(b, s, player) then MovesFrom(b, player, s, Squares()) else []
  }

  /** The moves from the first start followed by those from the others. */
  lemma JoinMoves(b: Board, player: Player, starts: seq<Position>, here: seq<Step>, rest: seq<Step>)
    requires |starts| > 0 && ValidSteps(here) && ValidSteps(rest)
    requires forall m :: m in here ==> m.from == starts[0] && Listed(b, player, m.from, m.to)
    requires forall m :: m in rest ==> m.from in starts[1..] && Listed(b, player, m.from, m.to)
    ensures ValidSteps(here + rest)
    ensures forall m :: m in here + rest ==> m.from in starts && Listed(b, player, m.from, m.to)
  {
    TailMembers(starts);
    assert forall i :: |here| <= i < |here + rest| ==> (here + rest)[i] == rest[i - |here|];
  }

  lemma {:induction false} MovesOfComplete(b: Board, player: Player, starts: seq<Position>)
    requires AllValid(starts)
    ensures forall s, e :: s in starts && Listed(b, player, s, e) ==> Step(s, e) in MovesOf(b, player, starts)
    decreases |starts|
  {
    if |starts| > 0 {
      MovesOfComplete(b, player, starts[1..]);
      assert forall x :: x in starts ==> x == starts[0] || x in starts[1..];
    }
  }

  lemma SquaresAllValid()
    ensures AllValid(Squares())
  {
    SquaresAreValid();
  }

  lemma TailMembers<T>(xs: seq<T>)
    requires |xs| > 0
    ensures forall x :: x in xs[1..] ==> x in xs
  {
  }

  lemma ListedFromSquares(b: Board, player: Player, s: Position)
    ensures forall e :: Listed(b, player, s, e) ==> IsPlayerPiece(b, s, player) && e in Squares()
  {
    forall e | Listed(b, player, s, e)
      ensures IsPlayerPiece(b, s, player) && e in Squares()
    {
      assert Squares()[Rank(e)] == e;
    }
  }

  /** `possiblesMoves(player)`: every start square in row-major order, and
      for each every end square in row-major order. Sound and complete for
      the legal moves whose length is the start square's lisère. */
  function PossibleMoves(b: Board, player: Player): (r: seq<Step>)
    ensures ValidSteps(r)
    ensures forall m :: m in r ==> Listed(b, player, m.from, m.to) && IsPlayerPiece(b, m.from, player)
    ensures forall s, e :: Listed(b, player, s, e) ==> Step(s, e) in r
  {
    SquaresAreValid();
    var r := MovesOf(b, player, Squares());
    MovesOfComplete(b, player, Squares());
    forall s, e | Listed(b, player, s, e) ensures Step(s, e) in r {
      assert Squares()[Rank(s)] == s;
    }
    r
  }

  /** A legal move shorter than its start square's lisère (see
      `Legality.ShortMoveAccepted`) is never listed. */
  lemma ShortMovesNotGenerated(b: Board, s: Position, e: Position, player: Player)
    requires s.Valid() && e.Valid() && Manhattan(s, e) < Lisere(s)
    ensures Step(s, e) !in PossibleMoves(b, player)
  {
  }

  /** A generated move is legal for the player and for nobody else. */
  lemma GeneratedMovesBelongToPlayer(b: Board, player: Player, m: Step)
    requires m in PossibleMoves(b, player)
    ensures m !in PossibleMoves(b, Opponent(player))
  {
    PlayerPieceIsOwnPiece(b, m.from, player);
  }
}

=== FILE: notation.dfy ===
/** The textual move notation: squares such as "B1" (column letter A-F,
    row number 1-6), regular moves "B1-D1", placements of six squares
    joined by '/', and the pass "E". The Java code splits and parses these
    strings with `String.split` and `Integer.parseInt`; both are modelled
    here as far as the board's parsing depends on them. */
module Notation {
  import opened Outcome
  import opened Positions
  import opened JavaInt

  /** The two squares of a regular move. */
  datatype Step = Step(from: Position, to: Position)

  // ---------------------------------------------------------------------
  // String.split with a one-character separator

  /** Glues pieces back together with the separator between them. */
  function Join(parts: seq<string>, sep: char): string
    requires |parts| >= 1
    decreases |parts|
  {
    if |parts| == 1 then parts[0] else parts[0] + [sep] + Join(parts[1..], sep)
  }

  /** The maximal separator-free pieces of `s`: k separators give k + 1
      pieces, empty ones included. */
  function Pieces(s: string, sep: char): (r: seq<string>)
    ensures |r| >= 1
    ensures forall i :: 0 <= i < |r| ==> sep !in r[i]
    ensures Join(r, sep) == s
    decreases |s|
  {
    if |s| == 0 then [""]
    else
      var rest := Pieces(s[1..], sep);
      if s[0] == sep then
        assert s == [sep] + s[1..];
        [""] + rest
      else
        var r := [[s[0]] + rest[0]] + rest[1..];
        assert r[1..] == rest[1..];
        assert Join(r, sep) == [s[0]] + Join(rest, sep);
        assert s == [s[0]] + s[1..];
        r
  }

  /** Removes the empty pieces at the end of the list. */
  function DropTrailingEmpty(xs: seq<string>): (r: seq<string>)
    ensures r <= xs
    ensures |r| == 0 || r[|r| - 1] != ""
    ensures forall i :: |r| <= i < |xs| ==> xs[i] == ""
    decreases |xs|
  {
    if |xs| > 0 && xs[|xs| - 1] == "" then DropTrailingEmpty(xs[..|xs| - 1]) else xs
  }

  /** `s.split(sep)` in Java: the pieces with trailing empty ones removed,
      except that a string without the separator comes back whole (so ""
      gives [""], while "-" gives no piece at all). */
  function JavaSplit(s: string, sep: char): (r: seq<string>)
    ensures forall i :: 0 <= i < |r| ==> sep !in r[i]
    ensures sep !in s ==> r == [s]
    ensures sep in s ==>
      && r <= Pieces(s, sep)
      && (|r| == 0 || r[|r| - 1] != "")
      && (forall i :: |r| <= i < |Pieces(s, sep)| ==> Pieces(s, sep)[i] == "")
  {
    if sep !in s then [s] else DropTrailingEmpty(Pieces(s, sep))
  }

  lemma {:induction false} PiecesOfPlain(a: string, sep: char)
    requires sep !in a
    ensures Pieces(a, sep) == [a]
    decreases |a|
  {
    if |a| > 0 {
      PiecesOfPlain(a[1..], sep);
      PiecesCons(a[0], a[1..], sep);
      assert [a[0]] + a[1..] == a;
    }
  }

  lemma {:induction false} PiecesAfterPlain(a: string, t: string, sep: char)
    requires sep !in a
    ensures Pieces(a + [sep] + t, sep) == [a] + Pieces(t, sep)
    decreases |a|
  {
    if |a| == 0 {
      PiecesCons(sep, t, sep);
      assert a + [sep] + t == [sep] + t;
    } else {
      PiecesAfterPlain(a[1..], t, sep);
      PiecesCons(a[0], a[1..] + [sep] + t, sep);
      assert a + [sep] + t == [a[0]] + (a[1..] + [sep] + t);
      assert [a[0]] + a[1..] == a;
    }
  }

  /** Splitting undoes joining when no piece contains the separator. */
  lemma {:induction false} PiecesOfJoin(parts: seq<string>, sep: char)
    requires |parts| >= 1
    requires forall i :: 0 <= i < |parts| ==> sep !in parts[i]
    ensures Pieces(Join(parts, sep), sep) == parts
    decreases |parts|
  {
    if |parts| == 1 {
      PiecesOfPlain(parts[0], sep);
    } else {
      PiecesOfJoin(parts[1..], sep);
      PiecesAfterPlain(parts[0], Join(parts[1..], sep), sep);
      assert [parts[0]] + parts[1..] == parts;
    }
  }

  /** `String.split` undoes joining at least two pieces, provided none holds
      the separator and the last one is not empty. */
  lemma JavaSplitOfJoin(parts: seq<string>, sep: char)
    requires |parts| >= 2 && parts[|parts| - 1] != ""
    requires forall i :: 0 <= i < |parts| ==> sep !in parts[i]
    ensures JavaSplit(Join(parts, sep), sep) == parts
  {
    PiecesOfJoin(parts, sep);
    assert Join(parts, sep)[|parts[0]|] == sep;
  }

  // ---------------------------------------------------------------------
  // Integer.parseInt

  predicate IsDigit(c: char) {
    '0' <= c <= '9'
  }

  predicate AllDigits(s: string) {
    forall i :: 0 <= i < |s| ==> IsDigit(s[i])
  }

  /** The value of a string of decimal digits, most significant first. */
  function DigitsValue(s: string): (n: nat)
    requires AllDigits(s)
    ensures |s| == 1 ==> n == s[0] as int - '0' as int
    decreases |s|
  {
    if |s| == 0 then 0
    else DigitsValue(s[..|s| - 1]) * 10 + (s[|s| - 1] as int - '0' as int)
  }

  /** `Integer.parseInt(s)`: an optional sign then at least one ASCII digit,
      and a value within 32 bits. `None` is the NumberFormatException. */
  function ParseInt(s: string): (r: Option<int>)
    ensures r.Some? ==> MinValue <= r.value <= MaxValue
    ensures |s| == 1 && IsDigit(s[0]) ==> r == Some(s[0] as int - '0' as int)
  {
    if |s| == 0 then None
    else
      var signed := s[0] == '-' || s[0] == '+';
      var digits := if signed then s[1..] else s;
      if |digits| == 0 || !AllDigits(digits) then None
      else
        var v: int := if s[0] == '-' then -(DigitsValue(digits) as int) else DigitsValue(digits);
        if MinValue <= v <= MaxValue then Some(v) else None
  }

  // ---------------------------------------------------------------------
  // Squares

  /** `parsePosition` (and `notationToPosition`): the column is the first
      character's distance from 'A', the row the number after it minus one.
      Too short, malformed or off-board tokens give `None`. */
  function ParseSquare(tok: string): (r: Option<Position>)
    ensures r.Some? ==> r.value.Valid()
    ensures r.Some? ==> |tok| >= 2 && r.value.col == tok[0] as int - 'A' as int
  {
    if |tok| < 2 then None
    else
      var col := tok[0] as int - 'A' as int;
      match ParseInt(tok[1..])
      case None => None
      case Some(n) =>
        // n - 1 wraps only for n == MIN_VALUE, whose result is off the board either way
        var row := n - 1;
        if 0 <= row < 6 && 0 <= col < 6 then Some(Position(row, col)) else None
  }

  /** `positionToNotation` for an on-board square: a letter and a digit. */
  function SquareName(p: Position): (name: string)
    requires p.Valid()
    ensures |name| == 2 && 'A' <= name[0] <= 'F' && '1' <= name[1] <= '6'
    ensures ParseSquare(name) == Some(p)
  {
    var name := [('A' as int + p.col) as char, ('1' as int + p.row) as char];
    assert name[1..] == [name[1]];
    name
  }

  /** `positionToNotation(row, col)` of the player, which throws (`None`)
      for off-board coordinates. */
  function PositionToNotation(row: int, col: int): (r: Option<string>)
    ensures r.Some? <==> Position(row, col).Valid()
    ensures r.Some? ==> ParseSquare(r.value) == Some(Position(row, col))
  {
    if Position(row, col).Valid() then Some(SquareName(Position(row, col))) else None
  }

  /** A two-character token is the name of the square it parses to. */
  lemma ShortTokenIsSquareName(tok: string)
    requires |tok| == 2 && ParseSquare(tok).Some?
    ensures tok == SquareName(ParseSquare(tok).value)
  {
    assert tok[1..] == [tok[1]];
    var name := SquareName(ParseSquare(tok).value);
    assert tok[0] == name[0] && tok[1] == name[1];
  }

  /** Off-board coordinates never produce a name, and every on-board name
      parses back to its coordinates. */
  lemma NotationRoundTrip(row: int, col: int)
    ensures PositionToNotation(row, col).None? <==> !(0 <= row < 6 && 0 <= col < 6)
    ensures 0 <= row < 6 && 0 <= col < 6 ==>
      ParseSquare(PositionToNotation(row, col).value) == Some(Position(row, col))
  {
  }

  // ---------------------------------------------------------------------
  // Regular moves

  /** "<from>-<to>". */
  function StepName(s: Step): (name: string)
    requires s.from.Valid() && s.to.Valid()
    ensures |name| == 5 && name[2] == '-'
    ensures '/' !in name
  {
    var name := SquareName(s.from) + "-" + SquareName(s.to);
    assert name[..2] == SquareName(s.from) && name[3..] == SquareName(s.to);
    name
  }

  /** The split of `move` at '-' into exactly two parsable squares. */
  function ParseStep(move: string): (r: Option<Step>)
    ensures r.Some? ==> r.value.from.Valid() && r.value.to.Valid()
  {
    var parts := JavaSplit(move, '-');
    if |parts| != 2 then None
    else
      match (ParseSquare(parts[0]), ParseSquare(parts[1]))
      case (Some(a), Some(b)) => Some(Step(a, b))
      case _ => None
  }

  lemma PiecesCons(c: char, t: string, sep: char)
    ensures c == sep ==> Pieces([c] + t, sep) == [""] + Pieces(t, sep)
    ensures c != sep ==> Pieces([c] + t, sep) == [[c] + Pieces(t, sep)[0]] + Pieces(t, sep)[1..]
  {
    assert ([c] + t)[1..] == t;
  }

  lemma SplitFiveChars(s: string)
    requires |s| == 5 && s[2] == '-' && s[0] != '-' && s[1] != '-' && s[3] != '-' && s[4] != '-'
    ensures JavaSplit(s, '-') == [s[..2], s[3..]]
  {
    PiecesCons(s[4], "", '-');
    assert [s[4]] + "" == [s[4]];
    PiecesCons(s[3], [s[4]], '-');
    PiecesCons('-', [s[3], s[4]], '-');
    PiecesCons(s[1], ['-', s[3], s[4]], '-');
    PiecesCons(s[0], [s[1], '-', s[3], s[4]], '-');
    assert s == [s[0]] + [s[1], '-', s[3], s[4]];
    assert [s[1]] + ['-', s[3], s[4]] == [s[1], '-', s[3], s[4]];
    assert ['-'] + [s[3], s[4]] == ['-', s[3], s[4]];
    assert [s[3]] + [s[4]] == [s[3], s[4]];
    assert Pieces([s[4]], '-') == [[s[4]]];
    assert Pieces([s[3], s[4]], '-') == [[s[3], s[4]]];
    assert Pieces(['-', s[3], s[4]], '-') == ["", [s[3], s[4]]];
    assert [s[1]] + "" == [s[1]];
    var p2: seq<string> := ["", [s[3], s[4]]];
    assert p2[0] == "" && p2[1..] == [[s[3], s[4]]];
    assert Pieces([s[1], '-', s[3], s[4]], '-') == [[s[1]], [s[3], s[4]]];
    var p1: seq<string> := [[s[1]], [s[3], s[4]]];
    assert p1[0] == [s[1]] && p1[1..] == [[s[3], s[4]]];
    assert [s[0]] + [s[1]] == [s[0], s[1]];
    assert Pieces(s, '-') == [[s[0], s[1]], [s[3], s[4]]];
    assert s[..2] == [s[0], s[1]] && s[3..] == [s[3], s[4]];
  }

  /** Printing a move then parsing it gives the move back. */
  lemma StepRoundTrip(s: Step)
    requires s.from.Valid() && s.to.Valid()
    ensures ParseStep(StepName(s)) == Some(s)
  {
    var name := StepName(s);
    assert name[..2] == SquareName(s.from) && name[3..] == SquareName(s.to);
    SplitFiveChars(name);
  }
}

=== FILE: outcome.dfy ===
/** Optional values and results, used where the Java code returns `null`
    or throws an exception. */
module Outcome {

  /** `None` stands for a Java `null` or for an exception that the caller
      never catches. */
  datatype Option<+T> = None | Some(value: T)

  /** The outcome of an operation that may be refused. */
  datatype Result<+T, +E> = Ok(value: T) | Err(error: E)
}

=== FILE: path_search.dfy ===
/** The depth-first path search of `EscampeBoard` (`hasValidPath`,
    `dfsPathfinding`) and the square tests it relies on (`isNextPosValid`,
    `isEndPosValid`). */
module PathSearch {
  import opened Positions
  import opened Directions
  import opened Boards

  /** `isNextPosValid`: a square passed through must be empty. */
  predicate IsNextPosValid(c: char)
    ensures IsNextPosValid(c) <==> c == '-'
    ensures IsNextPosValid(c) ==> !IsPieceChar(c)
  {
    c == Empty
  }

  /** `isEndPosValid`: a unicorn lands only on an empty square; a paladin
      lands on an empty square or on the enemy unicorn, never on a paladin. */
  function IsEndPosValid(piece: char, endPiece: char): (ok: bool)
    ensures forall p: Player :: piece == UnicornOf(p) ==> (ok <==> endPiece == Empty)
    ensures forall p: Player :: piece == PaladinOf(p) ==>
      (ok <==> endPiece == Empty || endPiece == UnicornOf(Opponent(p)))
    ensures !IsPieceChar(piece) ==> ok
  {
    var isPaladin := piece == 'n' || piece == 'b';
    if (piece == 'N' || piece == 'B') && endPiece != '-' then false
    else !isPaladin || endPiece == '-' || endPiece == (if piece == 'n' then 'B' else 'N')
  }

  /** No piece may land on a square holding a piece of the same kind and
      colour as itself; in particular not on its own starting square. */
  lemma EndRejectsOwnSquare(piece: char)
    requires IsPieceChar(piece)
    ensures !IsEndPosValid(piece, piece) && piece != Empty
  {
  }

  /** The test a square must pass to be entered with `stepsLeft` steps in
      hand: on the board, then empty while more steps remain, or acceptable
      as the end square on the last allotted step. */
  predicate Hop(b: Board, piece: char, next: Position, stepsLeft: nat) {
    next.Valid() &&
    if stepsLeft > 1 then IsNextPosValid(At(b, next)) else IsEndPosValid(piece, At(b, next))
  }

  /** `dfsPathfinding`, with the visited set compared by value: success as
      soon as the current square is the target, failure when no step is
      left, otherwise some direction whose square passes `Hop`, is not yet on
      the path, and from which the search succeeds with one step fewer. */
  predicate PathFrom(b: Board, cur: Position, end: Position, stepsLeft: nat,
                     visited: set<Position>, piece: char)
    ensures PathFrom(b, cur, end, stepsLeft, visited, piece) && cur != end ==>
      end.Valid() && (At(b, end) == Empty || IsEndPosValid(piece, At(b, end)))
    decreases stepsLeft
  {
    if cur == end then true
    else if stepsLeft == 0 then false
    else
      exists d :: d in AllDirections &&
        Hop(b, piece, Move(d, cur), stepsLeft) && Move(d, cur) !in visited &&
        PathFrom(b, Move(d, cur), end, stepsLeft - 1, visited + {Move(d, cur)}, piece)
  }

  /** `dfsPathfinding` as it behaves in Java: `Position` overloads
      `equals(Position)` but not `equals(Object)`/`hashCode`, so the
      `HashSet` compares by identity and never reports a fresh square as
      visited. The visited set therefore drops out. */
  predicate PathFromAsWritten(b: Board, cur: Position, end: Position, stepsLeft: nat, piece: char)
    ensures PathFromAsWritten(b, cur, end, stepsLeft, piece) && cur != end ==>
      end.Valid() && (At(b, end) == Empty || IsEndPosValid(piece, At(b, end)))
    decreases stepsLeft
  {
    if cur == end then true
    else if stepsLeft == 0 then false
    else
      exists d :: d in AllDirections &&
        Hop(b, piece, Move(d, cur), stepsLeft) &&
        PathFromAsWritten(b, Move(d, cur), end, stepsLeft - 1, piece)
  }

  /** `hasValidPath`: the search from the start square, whose piece is the
      one moving, with the start already visited. */
  predicate HasValidPath(b: Board, start: Position, end: Position, steps: nat)
    requires start.Valid()
    ensures HasValidPath(b, start, end, steps) ==> PathFromAsWritten(b, start, end, steps, At(b, start))
  {
    var found := PathFrom(b, start, end, steps, {start}, At(b, start));
    assert found ==> PathFromAsWritten(b, start, end, steps, At(b, start)) by {
      if found {
        PathIsWalk(b, start, end, steps, {start}, At(b, start));
      }
    }
    found
  }

  /** A walk of exactly k hops from `cur` to `end`, each hop passing `Hop`
      for the steps then in hand. */
  predicate FullWalk(b: Board, cur: Position, end: Position, k: nat, piece: char)
    decreases k
  {
    if k == 0 then cur == end
    else
      exists d :: d in AllDirections &&
        Hop(b, piece, Move(d, cur), k) && FullWalk(b, Move(d, cur), end, k - 1, piece)
  }

  // ---------------------------------------------------------------------
  // The visited set is redundant for searches of at most three steps

  /** Excluding visited squares can only remove paths. */
  lemma {:induction false} PathIsWalk(b: Board, cur: Position, end: Position, k: nat,
                                      visited: set<Position>, piece: char)
    requires PathFrom(b, cur, end, k, visited, piece)
    ensures PathFromAsWritten(b, cur, end, k, piece)
    decreases k
  {
    if cur != end {
      var d :| d in AllDirections && Hop(b, piece, Move(d, cur), k) && Move(d, cur) !in visited &&
        PathFrom(b, Move(d, cur), end, k - 1, visited + {Move(d, cur)}, piece);
      PathIsWalk(b, Move(d, cur), end, k - 1, visited + {Move(d, cur)}, piece);
    }
  }

  /** Third hop of a search started with at most three steps: its square
      is the target, so it is none of the squares already on the path. */
  lemma ThirdHop(b: Board, start: Position, a: Position, c: Position, end: Position, k: nat)
    requires start.Valid() && IsPieceChar(At(b, start)) && 2 <= k <= 3
    requires a != end && c != start && c != a
    requires PathFromAsWritten(b, c, end, k - 2, At(b, start))
    ensures PathFrom(b, c, end, k - 2, {start, a, c}, At(b, start))
  {
    var piece := At(b, start);
    if c != end && k - 2 > 0 {
      var d3 :| d3 in AllDirections && Hop(b, piece, Move(d3, c), k - 2) &&
        PathFromAsWritten(b, Move(d3, c), end, k - 3, piece);
      var e := Move(d3, c);
      EndRejectsOwnSquare(piece);
      assert e == end && e != start;
      assert e !in {start, a, c};
      assert PathFrom(b, e, end, k - 3, {start, a, c} + {e}, piece);
    }
  }

  /** Second hop: the square reached cannot be the start again (it holds a
      piece, so it is neither empty nor an acceptable end square). */
  lemma SecondHop(b: Board, start: Position, a: Position, end: Position, k: nat)
    requires start.Valid() && IsPieceChar(At(b, start)) && 1 <= k <= 3
    requires a != start
    requires PathFromAsWritten(b, a, end, k - 1, At(b, start))
    ensures PathFrom(b, a, end, k - 1, {start, a}, At(b, start))
  {
    var piece := At(b, start);
    if a != end && k - 1 > 0 {
      var d2 :| d2 in AllDirections && Hop(b, piece, Move(d2, a), k - 1) &&
        PathFromAsWritten(b, Move(d2, a), end, k - 2, piece);
      var c := Move(d2, a);
      EndRejectsOwnSquare(piece);
      assert c != start;
      ThirdHop(b, start, a, c, end, k);
      assert {start, a} + {c} == {start, a, c};
      assert Hop(b, piece, c, k - 1) && c !in {start, a} &&
        PathFrom(b, c, end, k - 2, {start, a} + {c}, piece);
    }
  }

  /** With at most three steps from a square holding a piece, comparing
      visited squares by value or by identity gives the same answer. */
  lemma VisitedSetRedundant(b: Board, start: Position, end: Position, k: nat)
    requires start.Valid() && IsPieceChar(At(b, start)) && k <= 3
    ensures PathFromAsWritten(b, start, end, k, At(b, start)) <==> HasValidPath(b, start, end, k)
  {
    var piece := At(b, start);
    if HasValidPath(b, start, end, k) {
      PathIsWalk(b, start, end, k, {start}, piece);
    }
    if start != end && k > 0 && PathFromAsWritten(b, start, end, k, piece) {
      var d1 :| d1 in AllDirections && Hop(b, piece, Move(d1, start), k) &&
        PathFromAsWritten(b, Move(d1, start), end, k - 1, piece);
      var a := Move(d1, start);
      SecondHop(b, start, a, end, k);
      assert {start} + {a} == {start, a};
    }
  }

  // ---------------------------------------------------------------------
  // Landing on an occupied square takes every allotted step

  /** A search that ends on an occupied square enters it only on the last
      allotted hop (every earlier hop needs an empty square), so it is a
      walk of exactly k hops. */
  lemma {:induction false} OccupiedTargetNeedsFullWalk(b: Board, cur: Position, end: Position,
                                                      k: nat, piece: char)
    requires end.Valid() && At(b, end) != Empty && cur != end
    requires PathFromAsWritten(b, cur, end, k, piece)
    ensures FullWalk(b, cur, end, k, piece)
    decreases k
  {
    var d :| d in AllDirections && Hop(b, piece, Move(d, cur), k) &&
      PathFromAsWritten(b, Move(d, cur), end, k - 1, piece);
    var n := Move(d, cur);
    if k > 1 {
      assert n != end;
      OccupiedTargetNeedsFullWalk(b, n, end, k - 1, piece);
    }
    assert FullWalk(b, n, end, k - 1, piece);
  }

  /** Conversely every full walk is found by the search. */
  lemma {:induction false} FullWalkIsFound(b: Board, cur: Position, end: Position, k: nat, piece: char)
    requires FullWalk(b, cur, end, k, piece)
    ensures PathFromAsWritten(b, cur, end, k, piece)
    decreases k
  {
    if k > 0 && cur != end {
      var d :| d in AllDirections && Hop(b, piece, Move(d, cur), k) && FullWalk(b, Move(d, cur), end, k - 1, piece);
      FullWalkIsFound(b, Move(d, cur), end, k - 1, piece);
    }
  }

  /** A walk of k hops on the grid ends within Manhattan distance k, at a
      distance of the same parity as k. */
  lemma {:induction false} FullWalkDistance(b: Board, cur: Position, end: Position, k: nat, piece: char)
    requires FullWalk(b, cur, end, k, piece)
    ensures Manhattan(cur, end) <= k && (k - Manhattan(cur, end)) % 2 == 0
    decreases k
  {
    if k > 0 {
      var d :| d in AllDirections && Hop(b, piece, Move(d, cur), k) && FullWalk(b, Move(d, cur), end, k - 1, piece);
      var n := Move(d, cur);
      FullWalkDistance(b, n, end, k - 1, piece);
      MoveShiftsDistance(d, cur, end);
      ParityStep(k - 1 - Manhattan(n, end));
    }
  }

  lemma MoveShiftsDistance(d: Direction, p: Position, e: Position)
    ensures Manhattan(Move(d, p), e) == Manhattan(p, e) + 1 || Manhattan(Move(d, p), e) == Manhattan(p, e) - 1
  {
  }

  lemma ParityStep(x: int)
    ensures (x + 2) % 2 == x % 2
  {
  }

  /** Arriving early: an empty neighbour of the start is reached on the
      first hop whatever the number of steps allotted. */
  lemma AdjacentEmptySquareIsReached(b: Board, start: Position, d: Direction, k: nat)
    requires start.Valid() && k >= 1 && d in AllDirections
    requires Move(d, start).Valid() && At(b, Move(d, start)) == Empty
    ensures HasValidPath(b, start, Move(d, start), k)
  {
    var n := Move(d, start);
    assert Hop(b, At(b, start), n, k);
    assert n !in {start};
    assert PathFrom(b, n, n, k - 1, {start} + {n}, At(b, start));
  }
}

=== FILE: placement.dfy ===
/** The opening move of each side: six squares joined by '/', the first
    for the unicorn and the other five for the paladins
    (`validateInitialPlacement` and `handleInitialPlacement` of
    `EscampeBoard`). */
module Placement {
  import opened Outcome
  import opened Positions
  import opened Boards
  import opened Notation

  /** Parses every token; fails as soon as one token is not an on-board
      square. */
  function ParseSquares(toks: seq<string>): (r: Option<seq<Position>>)
    ensures r.Some? <==> forall i :: 0 <= i < |toks| ==> ParseSquare(toks[i]).Some?
    ensures r.Some? ==> |r.value| == |toks| && AllValid(r.value)
    ensures r.Some? ==> forall i :: 0 <= i < |toks| ==> ParseSquare(toks[i]) == Some(r.value[i])
    decreases |toks|
  {
    if |toks| == 0 then Some([])
    else
      match (ParseSquare(toks[0]), ParseSquares(toks[1..]))
      case (Some(p), Some(ps)) => Some([p] + ps)
      case (None, _) => None
      case (_, None) =>
        assert forall i :: 1 <= i < |toks| ==> toks[i] == toks[1..][i - 1];
        None
  }

  /** The squares of a placement move: exactly six '/'-separated tokens,
      each naming an on-board square. */
  function ParsePlacement(move: string): (r: Option<seq<Position>>)
    ensures r.Some? ==> |r.value| == 6 && AllValid(r.value)
    ensures r.Some? ==> '/' in move
  {
    var parts := JavaSplit(move, '/');
    if |parts| != 6 then None else ParseSquares(parts)
  }

  /** All squares lie in row `top` or the row after it. */
  predicate InRows(ps: seq<Position>, top: int) {
    forall i :: 0 <= i < |ps| ==> ps[i].row == top || ps[i].row == top + 1
  }

  predicate AllEmpty(b: Board, ps: seq<Position>)
    requires AllValid(ps)
  {
    forall i :: 0 <= i < |ps| ==> At(b, ps[i]) == Empty
  }

  predicate Distinct(ps: seq<Position>) {
    forall i, j :: 0 <= i < j < |ps| ==> ps[i] != ps[j]
  }

  /** The rows a side may fill: Black picks rows 5-6 or rows 1-2; White
      takes the two rows on the far side from Black's pieces. */
  predicate RowsAllowed(b: Board, ps: seq<Position>, player: Player) {
    if player == Black then InRows(ps, 4) || InRows(ps, 0)
    else InRows(ps, if CheckInitSide(b) == Top then 4 else 0)
  }

  /** `validateInitialPlacement` as the Java code runs it. The set meant to
      catch a repeated square compares `Position` objects by identity, so
      its size is always six and repeated squares pass. */
  function ValidatePlacementAsWritten(b: Board, move: string, player: Player): (ok: bool)
    ensures ok ==> ParsePlacement(move).Some?
    ensures ok ==> forall i :: 0 <= i < 6 ==> At(b, ParsePlacement(move).value[i]) == Empty
    ensures ok && player == Black ==> InRows(ParsePlacement(move).value, 0) || InRows(ParsePlacement(move).value, 4)
    ensures ok && player == White ==> forall i :: 0 <= i < 6 ==>
      (ParsePlacement(move).value[i].row >= 4 <==> CheckInitSide(b) == Top)
  {
    match ParsePlacement(move)
    case None => false
    case Some(ps) => AllEmpty(b, ps) && RowsAllowed(b, ps, player)
  }

  /** `validateInitialPlacement` with the repeated-square test the size
      check was written for. */
  function ValidateInitialPlacement(b: Board, move: string, player: Player): (ok: bool)
    ensures ok ==> ValidatePlacementAsWritten(b, move, player)
    ensures ok ==> forall i, j :: 0 <= i < j < 6 ==> ParsePlacement(move).value[i] != ParsePlacement(move).value[j]
  {
    match ParsePlacement(move)
    case None => false
    case Some(ps) => AllEmpty(b, ps) && Distinct(ps) && RowsAllowed(b, ps, player)
  }

  /** Which placement check a move is judged by: the Java check as
      written, or the one with the repeated-square test. */
  /** The side a player string places for: `validateInitialPlacement`
      and `handleInitialPlacement` test only for "noir", so every other
      string, "blanc" or not, is judged by White's rows and writes 'B' and
      'b'. */
  function PlacementSide(s: string): (p: Player)
    ensures p == Black <==> s == "noir"
    ensures s != "noir" ==> UnicornOf(p) == 'B' && PaladinOf(p) == 'b'
  {
    if s == "noir" then Black else White
  }

  datatype PlacementRule = AsWritten | DistinctSquares

  function PlacementOk(b: Board, move: string, player: Player, rule: PlacementRule): bool {
    if rule == AsWritten then ValidatePlacementAsWritten(b, move, player)
    else ValidateInitialPlacement(b, move, player)
  }

  /** Writes `c` on every square of `ps`, first to last. */
  function PutAll(b: Board, ps: seq<Position>, c: char): (r: Board)
    requires AllValid(ps)
    ensures forall q: Position :: q.Valid() ==> At(r, q) == if q in ps then c else At(b, q)
    ensures r.lastLisere == b.lastLisere
    decreases |ps|
  {
    if |ps| == 0 then b
    else
      assert forall q :: q in ps <==> q == ps[0] || q in ps[1..];
      PutAll(Put(b, ps[0], c), ps[1..], c)
  }

  /** `handleInitialPlacement`: the unicorn on the first square, then a
      paladin on each of the others; a later write wins. */
  function HandleInitialPlacement(b: Board, ps: seq<Position>, player: Player): (r: Board)
    requires |ps| == 6 && AllValid(ps)
    ensures forall q: Position :: q.Valid() ==>
      At(r, q) == (if q in ps[1..] then PaladinOf(player) else if q == ps[0] then UnicornOf(player) else At(b, q))
    ensures r.lastLisere == b.lastLisere
  {
    PutAll(Put(b, ps[0], UnicornOf(player)), ps[1..], PaladinOf(player))
  }

  /** Writing a piece on distinct empty squares fills exactly that many. */
  lemma {:induction false} PutAllCounts(b: Board, ps: seq<Position>, c: char)
    requires AllValid(ps) && AllEmpty(b, ps) && Distinct(ps) && c != Empty
    ensures Count(PutAll(b, ps, c), Empty) == Count(b, Empty) - |ps|
    ensures Count(PutAll(b, ps, c), c) == Count(b, c) + |ps|
    decreases |ps|
  {
    if |ps| > 0 {
      var b1 := Put(b, ps[0], c);
      CountPut(b, ps[0], c, Empty);
      CountPut(b, ps[0], c, c);
      assert AllEmpty(b1, ps[1..]) by {
        forall i | 0 <= i < |ps[1..]| ensures At(b1, ps[1..][i]) == Empty {
          assert ps[1..][i] == ps[i + 1] && ps[i + 1] != ps[0];
        }
      }
      PutAllCounts(b1, ps[1..], c);
    }
  }

  /** A placement of six distinct empty squares adds the player's unicorn
      and five paladins and nothing else. */
  lemma PlacementAddsSixPieces(b: Board, ps: seq<Position>, player: Player)
    requires |ps| == 6 && AllValid(ps) && AllEmpty(b, ps) && Distinct(ps)
    ensures Count(HandleInitialPlacement(b, ps, player), UnicornOf(player)) == Count(b, UnicornOf(player)) + 1
    ensures Count(HandleInitialPlacement(b, ps, player), PaladinOf(player)) == Count(b, PaladinOf(player)) + 5
    ensures PieceCount(HandleInitialPlacement(b, ps, player)) == PieceCount(b) + 6
  {
    var b1 := Put(b, ps[0], UnicornOf(player));
    CountPut(b, ps[0], UnicornOf(player), Empty);
    CountPut(b, ps[0], UnicornOf(player), UnicornOf(player));
    CountPut(b, ps[0], UnicornOf(player), PaladinOf(player));
    var rest := ps[1..];
    assert AllEmpty(b1, rest) by {
      forall i | 0 <= i < |rest| ensures At(b1, rest[i]) == Empty {
        assert rest[i] == ps[i + 1] && ps[i + 1] != ps[0];
      }
    }
    assert Distinct(rest) by {
      forall i, j | 0 <= i < j < |rest| ensures rest[i] != rest[j] {
        assert rest[i] == ps[i + 1] && rest[j] == ps[j + 1];
      }
    }
    PutAllCounts(b1, rest, PaladinOf(player));
    PutAllUntouched(b1, rest, PaladinOf(player), UnicornOf(player));
  }

  /** Writing `c` everywhere on `ps` leaves the count of any other
      character that none of those squares held unchanged. */
  lemma {:induction false} PutAllUntouched(b: Board, ps: seq<Position>, c: char, x: char)
    requires AllValid(ps) && c != x
    requires forall i :: 0 <= i < |ps| ==> At(b, ps[i]) != x
    ensures Count(PutAll(b, ps, c), x) == Count(b, x)
    decreases |ps|
  {
    if |ps| > 0 {
      var b1 := Put(b, ps[0], c);
      CountPut(b, ps[0], c, x);
      forall i | 0 <= i < |ps[1..]| ensures At(b1, ps[1..][i]) != x {
        assert ps[1..][i] == ps[i + 1];
      }
      PutAllUntouched(b1, ps[1..], c, x);
    }
  }

  /** The names of the squares, in order. */
  function Names(ps: seq<Position>): (names: seq<string>)
    requires AllValid(ps)
    ensures |names| == |ps|
    ensures forall i :: 0 <= i < |ps| ==> names[i] == SquareName(ps[i])
    decreases |ps|
  {
    if |ps| == 0 then [] else [SquareName(ps[0])] + Names(ps[1..])
  }

  /** Parsing the names of squares gives the squares back. */
  lemma {:induction false} ParseNames(ps: seq<Position>)
    requires AllValid(ps)
    ensures ParseSquares(Names(ps)) == Some(ps)
    decreases |ps|
  {
    if |ps| > 0 {
      var toks := Names(ps);
      ParseNames(ps[1..]);
      assert toks[1..] == Names(ps[1..]);
      assert ParseSquare(toks[0]) == Some(ps[0]);
      assert ParseSquares(toks) == Some([ps[0]] + ps[1..]);
      assert [ps[0]] + ps[1..] == ps;
    }
  }

  /** The notation of six squares: their names joined by '/'. */
  function PlacementName(ps: seq<Position>): (move: string)
    requires |ps| == 6 && AllValid(ps)
    ensures ParsePlacement(move) == Some(ps)
  {
    var names := Names(ps);
    assert forall i :: 0 <= i < 6 ==> '/' !in names[i];
    JavaSplitOfJoin(names, '/');
    ParseNames(ps);
    Join(names, '/')
  }

  /** The named placement is accepted exactly when its squares are
      distinct, empty and in the rows the side may fill. */
  lemma PlacementAccepted(b: Board, ps: seq<Position>, player: Player)
    requires |ps| == 6 && AllValid(ps)
    ensures ValidateInitialPlacement(b, PlacementName(ps), player) <==>
      AllEmpty(b, ps) && Distinct(ps) && RowsAllowed(b, ps, player)
  {
  }

  /** The named placement passes the Java check exactly when its squares
      are empty and in the rows the side may fill, repeated or not. */
  lemma PlacementAcceptedAsWritten(b: Board, ps: seq<Position>, player: Player)
    requires |ps| == 6 && AllValid(ps)
    ensures ValidatePlacementAsWritten(b, PlacementName(ps), player) <==>
      AllEmpty(b, ps) && RowsAllowed(b, ps, player)
  {
  }

  /** The squares of "A1/A1/B1/C1/D1/E1". */
  function RepeatedSquares(): (ps: seq<Position>)
    ensures |ps| == 6 && AllValid(ps)
  {
    [Position(0, 0), Position(0, 0), Position(0, 1), Position(0, 2), Position(0, 3), Position(0, 4)]
  }

  /** The Java check lets a square be named twice: Black may open with
      "A1/A1/B1/C1/D1/E1" on an empty board, and the paladin written over
      the unicorn leaves Black without one. */
  lemma RepeatedSquareAcceptedAsWritten()
    ensures ValidatePlacementAsWritten(NewBoard(), PlacementName(RepeatedSquares()), Black)
    ensures !ValidateInitialPlacement(NewBoard(), PlacementName(RepeatedSquares()), Black)
    ensures forall q: Position :: q.Valid() ==> At(HandleInitialPlacement(NewBoard(), RepeatedSquares(), Black), q) != 'N'
  {
    var ps := RepeatedSquares();
    RepeatedSquaresFitAnEmptyBoard();
    assert ps[0] == ps[1];
    RepeatedSquareOverwritten(NewBoard());
  }

  lemma RepeatedSquaresFitAnEmptyBoard()
    ensures AllEmpty(NewBoard(), RepeatedSquares()) && InRows(RepeatedSquares(), 0)
  {
  }

  /** With the first square repeated, no unicorn reaches the board. */
  lemma RepeatedSquareOverwritten(b: Board)
    requires forall p: Position :: p.Valid() ==> At(b, p) != 'N'
    ensures forall q: Position :: q.Valid() ==> At(HandleInitialPlacement(b, RepeatedSquares(), Black), q) != 'N'
  {
    var ps := RepeatedSquares();
    assert ps[0] in ps[1..];
  }
}

=== FILE: position.dfy ===
/** A square of the 6x6 board, as `Position.java` describes it. */
module Positions {
  import opened JavaInt

  /** The constructor stores its two arguments unchanged; coordinates are
      unbounded integers, so a `Position` may lie off the board. */
  datatype Position = Position(row: int, col: int) {

    /** `isValid`: both coordinates lie in [0, 6). */
    predicate Valid() {
      0 <= row < 6 && 0 <= col < 6
    }
  }

  /** `equals(Position)`: field-wise comparison. */
  function Equals(p: Position, q: Position): (r: bool)
    ensures r <==> p == q
  {
    p.row == q.row && p.col == q.col
  }

  lemma EqualsIsEquivalence(p: Position, q: Position, s: Position)
    ensures Equals(p, p)
    ensures Equals(p, q) <==> Equals(q, p)
    ensures Equals(p, q) && Equals(q, s) ==> Equals(p, s)
  {
  }

  /** Manhattan (4-neighbour) distance between two squares. */
  function Manhattan(p: Position, q: Position): (d: int)
    ensures d >= 0
    ensures d == 0 <==> p == q
  {
    Abs(q.row - p.row) + Abs(q.col - p.col)
  }

  predicate AllValid(ps: seq<Position>) {
    forall i :: 0 <= i < |ps| ==> ps[i].Valid()
  }

  /** Every square of the board, row by row, left to right: the order in
      which the Java loops `for r .. for c ..` visit them. */
  function Squares(): seq<Position> {
    seq(36, i => Position(i / 6, i % 6))
  }

  /** Row-major rank of a square. */
  function Rank(p: Position): (k: int)
    requires p.Valid()
    ensures 0 <= k < 36 && Squares()[k] == p
  {
    p.row * 6 + p.col
  }

  /** The square of rank k, and its rank. */
  lemma SquareAt(k: int)
    requires 0 <= k < 36
    ensures Squares()[k].Valid() && Rank(Squares()[k]) == k
  {
  }

  lemma SquaresAreValid()
    ensures |Squares()| == 36
    ensures forall i :: 0 <= i < |Squares()| ==> Squares()[i].Valid()
  {
  }

  lemma SquaresAreTheBoard()
    ensures |Squares()| == 36
    ensures forall i :: 0 <= i < 36 ==> Squares()[i].Valid() && Rank(Squares()[i]) == i
    ensures forall p: Position :: p.Valid() ==> p in Squares()
  {
    forall p: Position | p.Valid() ensures p in Squares() {
      assert Squares()[Rank(p)] == p;
    }
  }
}

=== FILE: rules.dfy ===
/** The entry points of `EscampeBoard` that take move text: `isValidMove`,
    `play` and `handleRegularMove`. */
module Rules {
  import opened Outcome
  import opened Positions
  import opened Boards
  import opened Notation
  import opened PathSearch
  import opened Legality
  import opened MoveGen
  import opened Placement

  /** The answer of `isValidMove` and the board it leaves behind:
      validating the pass "E" clears `lastMoveLisere`. */
  datatype Verdict = Verdict(valid: bool, after: Board)

  /** `isValidMove`: the pass "E" is valid when the player has no listed
      move; a move containing '/' is a placement; anything else must split
      at '-' into two on-board squares forming a legal regular move. The
      Java method is `rule == AsWritten`; `DistinctSquares` also refuses a
      placement naming a square twice. */
  function IsValidMove(b: Board, move: string, player: Player, rule: PlacementRule): (v: Verdict)
    ensures v.after == b || (move == "E" && v.valid && v.after == b.(lastLisere := -1))
    ensures move == "E" ==> (v.valid <==> |PossibleMoves(b, player)| == 0)
    ensures '/' in move && rule == AsWritten ==> (v.valid <==> ValidatePlacementAsWritten(b, move, player))
    ensures '/' in move && rule == DistinctSquares ==> (v.valid <==> ValidateInitialPlacement(b, move, player))
    ensures v.valid && '/' in move ==> ParsePlacement(move).Some?
    ensures v.valid && move != "E" && '/' !in move ==>
      ParseStep(move).Some? && IsValidRegularMove(b, ParseStep(move).value.from, ParseStep(move).value.to, player)
  {
    if move == "E" && |PossibleMoves(b, player)| == 0 then Verdict(true, b.(lastLisere := -1))
    else if '/' in move then Verdict(PlacementOk(b, move, player, rule), b)
    else
      match ParseStep(move)
      case None => Verdict(false, b)
      case Some(s) => Verdict(IsValidRegularMove(b, s.from, s.to, player), b)
  }

  /** `handleRegularMove`: the end square's lisère becomes the constraint
      for the next move, the moving piece is copied to the end square, and
      the start square is emptied. */
  function ApplyStep(b: Board, s: Step): (r: Board)
    requires s.from.Valid() && s.to.Valid()
    ensures r.lastLisere == Lisere(s.to)
    ensures s.from != s.to ==> At(r, s.to) == At(b, s.from) && At(r, s.from) == Empty
    ensures forall q: Position :: q.Valid() && q != s.from && q != s.to ==> At(r, q) == At(b, q)
  {
    var r := Put(Put(b.(lastLisere := Lisere(s.to)), s.to, At(b, s.from)), s.from, Empty);
    r
  }

  /** `play` refuses with an IllegalArgumentException what `isValidMove`
      rejects. */
  datatype PlayError = InvalidMove

  /** `play`: validate (keeping the side effect of validating "E"), then
      apply a placement or a regular move; a valid pass changes nothing
      more. */
  function Play(b: Board, move: string, player: Player, rule: PlacementRule): (r: Result<Board, PlayError>)
    ensures r.Err? <==> !IsValidMove(b, move, player, rule).valid
    ensures r.Ok? && move == "E" ==> r.value == b.(lastLisere := -1)
    ensures r.Ok? && move != "E" && '/' !in move ==>
      r.value == ApplyStep(b, ParseStep(move).value)
    ensures r.Ok? && '/' in move ==>
      r.value == HandleInitialPlacement(b, ParsePlacement(move).value, player)
  {
    var v := IsValidMove(b, move, player, rule);
    if !v.valid then Err(InvalidMove)
    else if '/' in move then
      match ParsePlacement(move)
      case Some(ps) => Ok(HandleInitialPlacement(v.after, ps, player))
      // validation has parsed the move already
      case None => Ok(v.after)
    else if move != "E" then
      match ParseStep(move)
      case Some(s) => Ok(ApplyStep(v.after, s))
      case None => Ok(v.after)
    else Ok(v.after)
  }

  /** The pass rule: "E" is valid exactly when the player has no listed
      move, and playing it only clears the lisère constraint. */
  lemma PassRule(b: Board, player: Player, rule: PlacementRule)
    ensures IsValidMove(b, "E", player, rule).valid <==> |PossibleMoves(b, player)| == 0
    ensures |PossibleMoves(b, player)| == 0 ==> Play(b, "E", player, rule) == Ok(b.(lastLisere := -1))
    ensures |PossibleMoves(b, player)| > 0 ==> Play(b, "E", player, rule) == Err(InvalidMove)
  {
  }

  /** The printed form of a regular move is judged by
      `isValidRegularMove` alone, and validating it changes nothing. */
  lemma StepVerdict(b: Board, s: Step, player: Player, rule: PlacementRule)
    requires s.from.Valid() && s.to.Valid()
    ensures IsValidMove(b, StepName(s), player, rule) == Verdict(IsValidRegularMove(b, s.from, s.to, player), b)
  {
    StepRoundTrip(s);
  }

  /** Playing a legal regular move moves the piece and changes no other
      square; the number of pieces stays the same, except that landing on
      the enemy unicorn removes it. */
  lemma PlayRegularMove(b: Board, s: Step, player: Player, rule: PlacementRule)
    requires s.from.Valid() && s.to.Valid() && IsValidRegularMove(b, s.from, s.to, player)
    ensures Play(b, StepName(s), player, rule) == Ok(ApplyStep(b, s))
    ensures At(b, s.to) == Empty || At(b, s.to) == UnicornOf(Opponent(player))
    ensures PieceCount(ApplyStep(b, s)) ==
      PieceCount(b) - (if At(b, s.to) == UnicornOf(Opponent(player)) then 1 else 0)
  {
    PlayStep(b, s, player, rule);
    RegularMoveRules(b, s.from, s.to, player);
    StepCounts(b, s, Empty);
  }

  lemma PlayStep(b: Board, s: Step, player: Player, rule: PlacementRule)
    requires s.from.Valid() && s.to.Valid() && IsValidRegularMove(b, s.from, s.to, player)
    ensures Play(b, StepName(s), player, rule) == Ok(ApplyStep(b, s))
  {
    var name := StepName(s);
    StepVerdict(b, s, player, rule);
    StepRoundTrip(s);
    PlayParsedStep(b, name, player, s, rule);
  }

  /** A valid move text that is neither the pass nor a placement plays the
      step it parses to. */
  lemma PlayParsedStep(b: Board, move: string, player: Player, s: Step, rule: PlacementRule)
    requires move != "E" && '/' !in move && ParseStep(move) == Some(s)
    requires IsValidMove(b, move, player, rule).valid
    ensures Play(b, move, player, rule) == Ok(ApplyStep(b, s))
  {
  }

  /** How a regular move changes the count of a character. */
  lemma StepCounts(b: Board, s: Step, x: char)
    requires s.from.Valid() && s.to.Valid() && s.from != s.to
    ensures Count(ApplyStep(b, s), x) == Count(b, x)
      - (if At(b, s.to) == x then 1 else 0)
      + (if x == Empty then 1 else 0)
  {
    var b0 := b.(lastLisere := Lisere(s.to));
    SameGridSameCount(b, b0, x, 0);
    var b1 := Put(b0, s.to, At(b, s.from));
    CountPut(b0, s.to, At(b, s.from), x);
    CountPut(b1, s.from, Empty, x);
  }

  /** Every move the generator lists can be played, and playing it is
      `handleRegularMove`. */
  lemma GeneratedMovePlays(b: Board, m: Step, player: Player, rule: PlacementRule)
    requires m in PossibleMoves(b, player)
    ensures Play(b, StepName(m), player, rule) == Ok(ApplyStep(b, m))
  {
    PlayRegularMove(b, m, player, rule);
  }

  /** Capturing the only enemy unicorn ends the game. */
  lemma CaptureEndsGame(b: Board, s: Step, player: Player)
    requires s.from.Valid() && s.to.Valid() && IsValidRegularMove(b, s.from, s.to, player)
    requires At(b, s.to) == UnicornOf(Opponent(player)) && Count(b, UnicornOf(Opponent(player))) == 1
    ensures GameOver(ApplyStep(b, s))
  {
    var u := UnicornOf(Opponent(player));
    RegularMoveRules(b, s.from, s.to, player);
    PlayerPieceIsOwnPiece(b, s.from, player);
    StepCounts(b, s, u);
    CountZero(ApplyStep(b, s), u);
  }

  /** After a regular move, the next regular move (by either side) must
      start from a square whose lisère is that of the square just reached. */
  lemma LisereLinksTurns(b: Board, s: Step, next: Step, player: Player)
    requires s.from.Valid() && s.to.Valid() && next.from.Valid() && next.to.Valid()
    requires IsValidRegularMove(ApplyStep(b, s), next.from, next.to, player)
    ensures Lisere(next.from) == Lisere(s.to)
  {
  }

  /** Playing a placement of six distinct empty squares in the allowed
      rows writes the six pieces and adds six pieces to the board, under
      either placement rule. */
  lemma PlayPlacement(b: Board, ps: seq<Position>, player: Player, rule: PlacementRule)
    requires |ps| == 6 && AllValid(ps) && AllEmpty(b, ps) && Distinct(ps) && RowsAllowed(b, ps, player)
    ensures Play(b, PlacementName(ps), player, rule) == Ok(HandleInitialPlacement(b, ps, player))
    ensures PieceCount(HandleInitialPlacement(b, ps, player)) == PieceCount(b) + 6
  {
    PlacementAccepted(b, ps, player);
    var move := PlacementName(ps);
    assert '/' in move;
    assert move != "E";
    PlacementAddsSixPieces(b, ps, player);
  }

  /** As written, Black's opening "A1/A1/B1/C1/D1/E1" is played: the
      paladin written second on A1 replaces the unicorn, and the game is
      over before White moves. With the repeated-square test the same text
      is refused. */
  lemma RepeatedPlacementPlayed()
    ensures var r := Play(NewBoard(), PlacementName(RepeatedSquares()), Black, AsWritten);
      r.Ok? && GameOver(r.value)
    ensures Play(NewBoard(), PlacementName(RepeatedSquares()), Black, DistinctSquares) == Err(InvalidMove)
  {
    var move := PlacementName(RepeatedSquares());
    RepeatedSquareAcceptedAsWritten();
    assert '/' in move && move != "E";
    RepeatedSquareOverwritten(NewBoard());
  }
}

=== FILE: search.dfy ===
/** The game-tree search of `JoueurSuperFort`: `minMax` with alpha-beta
    pruning and `findBestMove`. The search always scores boards for the
    player `me` it plays for: at a maximising node `me` moves, at a
    minimising node the opponent does. A child board is the board after
    `handleRegularMove` (`Rules.GeneratedMovePlays` shows that `play`
    applies a generated move that way). */
module Search {
  import opened JavaInt
  import opened Boards
  import opened Notation
  import opened MoveGen
  import opened Rules
  import opened Evaluation

  /** A move generator whose moves keep both squares on the board. The
      search is written for any such generator; `findBestMove` runs it with
      `possiblesMoves` (`MoveGen.PossibleMoves`). */
  type Generator = g: (Board, Player) -> seq<Step> | forall x: Board, p: Player :: ValidSteps(g(x, p))
    witness (x: Board, p: Player) => []

  function Max(a: Int32, b: Int32): (m: Int32)
    ensures m >= a && m >= b && (m == a || m == b)
  {
    if a >= b then a else b
  }

  function Min(a: Int32, b: Int32): (m: Int32)
    ensures m <= a && m <= b && (m == a || m == b)
  {
    if a <= b then a else b
  }

  // ---------------------------------------------------------------------
  // The reference: minimax without pruning

  /** The value of a node: the evaluation for `me` at depth 0 or on a
      finished game, otherwise the best value over the children for the
      side to move. A side without moves scores `Integer.MIN_VALUE`
      (maximising) or `Integer.MAX_VALUE` (minimising). */
  function Minimax(b: Board, depth: nat, maximizing: bool, me: Player, gen: Generator, rest: Board -> Int32): Int32
    decreases depth, 2
  {
    if depth == 0 || GameOver(b) then Evaluate(b, me, rest)
    else if maximizing then MaxOver(b, gen(b, me), depth, me, gen, rest)
    else MinOver(b, gen(b, Opponent(me)), depth, me, gen, rest)
  }

  /** The largest value of the children reached by `ms`. */
  function MaxOver(b: Board, ms: seq<Step>, depth: nat, me: Player, gen: Generator, rest: Board -> Int32): Int32
    requires ValidSteps(ms) && depth >= 1
    decreases depth, 1, |ms|
  {
    if |ms| == 0 then MinValue
    else Max(ChildValue(b, ms[0], depth, false, me, gen, rest), MaxOver(b, ms[1..], depth, me, gen, rest))
  }

  /** The smallest value of the children reached by `ms`. */
  function MinOver(b: Board, ms: seq<Step>, depth: nat, me: Player, gen: Generator, rest: Board -> Int32): Int32
    requires ValidSteps(ms) && depth >= 1
    decreases depth, 1, |ms|
  {
    if |ms| == 0 then MaxValue
    else Min(ChildValue(b, ms[0], depth, true, me, gen, rest), MinOver(b, ms[1..], depth, me, gen, rest))
  }

  /** The value of the board after `m`, one level shallower. */
  function ChildValue(b: Board, m: Step, depth: nat, maximizing: bool, me: Player, gen: Generator, rest: Board -> Int32): Int32
    requires m.from.Valid() && m.to.Valid() && depth >= 1
    decreases depth, 0
  {
    Minimax(ApplyStep(b, m), depth - 1, maximizing, me, gen, rest)
  }

  // ---------------------------------------------------------------------
  // minMax as written: fail-soft alpha-beta

  /** `minMax(board, depth, alpha, beta, maximizingPlayer)`. It returns
      `evaluate` at depth 0 or on a finished game; a side to move without
      moves (passes are not explored) keeps the initial
      `Integer.MIN_VALUE` or `Integer.MAX_VALUE`. */
  function AlphaBeta(b: Board, depth: nat, alpha: Int32, beta: Int32, maximizing: bool,
                     me: Player, gen: Generator, rest: Board -> Int32): (r: Int32)
    ensures depth == 0 ==> r == Evaluate(b, me, rest)
    ensures depth > 0 && !GameOver(b) && maximizing && |gen(b, me)| == 0 ==> r == MinValue
    ensures depth > 0 && !GameOver(b) && !maximizing && |gen(b, Opponent(me))| == 0 ==> r == MaxValue
    decreases depth, 2
  {
    if depth == 0 || GameOver(b) then Evaluate(b, me, rest)
    else if maximizing then MaxLoop(b, gen(b, me), depth, alpha, beta, MinValue, me, gen, rest)
    else MinLoop(b, gen(b, Opponent(me)), depth, alpha, beta, MaxValue, me, gen, rest)
  }

  /** The loop of a maximising node over the moves `ms` still to try:
      `best` is `maxEval` and `alpha` the raised lower bound; the loop
      stops once `beta <= alpha`. `maxEval` never decreases. */
  function MaxLoop(b: Board, ms: seq<Step>, depth: nat, alpha: Int32, beta: Int32, best: Int32,
                   me: Player, gen: Generator, rest: Board -> Int32): (r: Int32)
    requires ValidSteps(ms) && depth >= 1
    ensures best <= r
    decreases depth, 1, |ms|
  {
    if |ms| == 0 then best
    else
      var e := ChildSearch(b, ms[0], depth, alpha, beta, false, me, gen, rest);
      var alpha' := Max(alpha, e);
      if beta <= alpha' then Max(best, e)
      else MaxLoop(b, ms[1..], depth, alpha', beta, Max(best, e), me, gen, rest)
  }

  /** The loop of a minimising node: `best` is `minEval` and `beta` the
      lowered upper bound. `minEval` never increases. */
  function MinLoop(b: Board, ms: seq<Step>, depth: nat, alpha: Int32, beta: Int32, best: Int32,
                   me: Player, gen: Generator, rest: Board -> Int32): (r: Int32)
    requires ValidSteps(ms) && depth >= 1
    ensures r <= best
    decreases depth, 1, |ms|
  {
    if |ms| == 0 then best
    else
      var e := ChildSearch(b, ms[0], depth, alpha, beta, true, me, gen, rest);
      var beta' := Min(beta, e);
      if beta' <= alpha then Min(best, e)
      else MinLoop(b, ms[1..], depth, alpha, beta', Min(best, e), me, gen, rest)
  }

  /** `minMax` on the board after `m`, one level shallower; one level
      above the leaves that is the evaluation of that board. */
  function ChildSearch(b: Board, m: Step, depth: nat, alpha: Int32, beta: Int32, maximizing: bool,
                       me: Player, gen: Generator, rest: Board -> Int32): (r: Int32)
    requires m.from.Valid() && m.to.Valid() && depth >= 1
    ensures depth == 1 ==> r == Evaluate(ApplyStep(b, m), me, rest)
    decreases depth, 0
  {
    AlphaBeta(ApplyStep(b, m), depth - 1, alpha, beta, maximizing, me, gen, rest)
  }

  /** The first move tried is never pruned: its child's search value
      bounds a maximising loop's result from below and a minimising loop's
      from above. */
  lemma FirstChildCounts(b: Board, ms: seq<Step>, depth: nat, alpha: Int32, beta: Int32, best: Int32,
                         me: Player, gen: Generator, rest: Board -> Int32)
    requires ValidSteps(ms) && depth >= 1 && |ms| > 0
    ensures ChildSearch(b, ms[0], depth, alpha, beta, false, me, gen, rest) <= MaxLoop(b, ms, depth, alpha, beta, best, me, gen, rest)
    ensures MinLoop(b, ms, depth, alpha, beta, best, me, gen, rest) <= ChildSearch(b, ms[0], depth, alpha, beta, true, me, gen, rest)
  {
  }

  /** A finished game is a leaf of `minMax` at every depth. */
  lemma FinishedGameIsLeaf(b: Board, depth: nat, alpha: Int32, beta: Int32, maximizing: bool,
                           me: Player, gen: Generator, rest: Board -> Int32)
    requires GameOver(b)
    ensures AlphaBeta(b, depth, alpha, beta, maximizing, me, gen, rest) == Evaluate(b, me, rest)
  {
  }

  /** What a fail-soft search with window (alpha, beta) promises about its
      result `r` when the true value is `v`: exact inside the window, an
      upper bound at or below `alpha`, a lower bound at or above `beta`. */
  predicate FailSoft(r: int, v: int, alpha: int, beta: int) {
    && (v <= alpha ==> v <= r <= alpha)
    && (alpha < v < beta ==> r == v)
    && (beta <= v ==> beta <= r <= v)
  }

  /** Pruning never changes a value inside the window, and outside it only
      moves the result toward the window's edge. */
  lemma {:induction false} AlphaBetaBounds(b: Board, depth: nat, alpha: Int32, beta: Int32, maximizing: bool,
                                           me: Player, gen: Generator, rest: Board -> Int32)
    requires alpha < beta
    ensures FailSoft(AlphaBeta(b, depth, alpha, beta, maximizing, me, gen, rest),
                     Minimax(b, depth, maximizing, me, gen, rest), alpha, beta)
    decreases depth, 2
  {
    if depth == 0 || GameOver(b) {
    } else if maximizing {
      MaxLoopBounds(b, gen(b, me), depth, alpha, alpha, beta, MinValue, MinValue, me, gen, rest);
    } else {
      MinLoopBounds(b, gen(b, Opponent(me)), depth, alpha, beta, beta, MaxValue, MaxValue, me, gen, rest);
    }
  }

  /** The maximising loop, entered with window (alpha0, beta) after
      children whose true maximum is `seen`: `best` is that maximum when it
      lies above alpha0, and otherwise an upper bound for it no higher than
      alpha0. */
  lemma {:induction false} MaxLoopBounds(b: Board, ms: seq<Step>, depth: nat, alpha0: Int32, alpha: Int32,
                                         beta: Int32, best: Int32, seen: Int32, me: Player, gen: Generator, rest: Board -> Int32)
    requires ValidSteps(ms) && depth >= 1
    requires alpha0 < beta && alpha == Max(alpha0, best) && alpha < beta
    requires seen > alpha0 ==> best == seen
    requires seen <= alpha0 ==> seen <= best <= alpha0
    ensures FailSoft(MaxLoop(b, ms, depth, alpha, beta, best, me, gen, rest),
                     Max(seen, MaxOver(b, ms, depth, me, gen, rest)), alpha0, beta)
    decreases depth, 1, |ms|
  {
    if |ms| > 0 {
      ChildBounds(b, ms[0], depth, alpha, beta, false, me, gen, rest);
      var e := ChildSearch(b, ms[0], depth, alpha, beta, false, me, gen, rest);
      var t := ChildValue(b, ms[0], depth, false, me, gen, rest);
      var later := MaxOver(b, ms[1..], depth, me, gen, rest);
      assert MaxOver(b, ms, depth, me, gen, rest) == Max(t, later);
      MaxStep(alpha0, alpha, beta, best, seen, e, t, later);
      if beta > Max(alpha, e) {
        MaxLoopBounds(b, ms[1..], depth, alpha0, Max(alpha, e), beta, Max(best, e), Max(seen, t), me, gen, rest);
        assert MaxLoop(b, ms, depth, alpha, beta, best, me, gen, rest) ==
          MaxLoop(b, ms[1..], depth, Max(alpha, e), beta, Max(best, e), me, gen, rest);
      } else {
        assert MaxLoop(b, ms, depth, alpha, beta, best, me, gen, rest) == Max(best, e);
      }
    }
  }

  /** The bounds for the board after one move. */
  lemma ChildBounds(b: Board, m: Step, depth: nat, alpha: Int32, beta: Int32, maximizing: bool,
                    me: Player, gen: Generator, rest: Board -> Int32)
    requires m.from.Valid() && m.to.Valid() && depth >= 1 && alpha < beta
    ensures FailSoft(ChildSearch(b, m, depth, alpha, beta, maximizing, me, gen, rest),
                     ChildValue(b, m, depth, maximizing, me, gen, rest), alpha, beta)
    decreases depth, 0
  {
    AlphaBetaBounds(ApplyStep(b, m), depth - 1, alpha, beta, maximizing, me, gen, rest);
  }

  /** One child of a maximising node: the loop invariant survives a child
      that does not cut off, and a cut-off result is a lower bound. */
  lemma MaxStep(alpha0: Int32, alpha: Int32, beta: Int32, best: Int32, seen: Int32, e: Int32, t: Int32, later: Int32)
    requires alpha0 < beta && alpha == Max(alpha0, best) && alpha < beta
    requires seen > alpha0 ==> best == seen
    requires seen <= alpha0 ==> seen <= best <= alpha0
    requires FailSoft(e, t, alpha, beta)
    ensures Max(Max(seen, t), later) == Max(seen, Max(t, later))
    ensures beta <= Max(alpha, e) ==> FailSoft(Max(best, e), Max(seen, Max(t, later)), alpha0, beta)
    ensures beta > Max(alpha, e) ==>
      && Max(alpha, e) == Max(alpha0, Max(best, e))
      && (Max(seen, t) > alpha0 ==> Max(best, e) == Max(seen, t))
      && (Max(seen, t) <= alpha0 ==> Max(seen, t) <= Max(best, e) <= alpha0)
  {
  }

  /** The minimising loop, the mirror image of `MaxLoopBounds`. */
  lemma {:induction false} MinLoopBounds(b: Board, ms: seq<Step>, depth: nat, alpha: Int32, beta0: Int32,
                                         beta: Int32, best: Int32, seen: Int32, me: Player, gen: Generator, rest: Board -> Int32)
    requires ValidSteps(ms) && depth >= 1
    requires alpha < beta0 && beta == Min(beta0, best) && alpha < beta
    requires seen < beta0 ==> best == seen
    requires seen >= beta0 ==> beta0 <= best <= seen
    ensures FailSoft(MinLoop(b, ms, depth, alpha, beta, best, me, gen, rest),
                     Min(seen, MinOver(b, ms, depth, me, gen, rest)), alpha, beta0)
    decreases depth, 1, |ms|
  {
    if |ms| > 0 {
      ChildBounds(b, ms[0], depth, alpha, beta, true, me, gen, rest);
      var e := ChildSearch(b, ms[0], depth, alpha, beta, true, me, gen, rest);
      var t := ChildValue(b, ms[0], depth, true, me, gen, rest);
      var later := MinOver(b, ms[1..], depth, me, gen, rest);
      assert MinOver(b, ms, depth, me, gen, rest) == Min(t, later);
      MinStep(alpha, beta0, beta, best, seen, e, t, later);
      if Min(beta, e) > alpha {
        MinLoopBounds(b, ms[1..], depth, alpha, beta0, Min(beta, e), Min(best, e), Min(seen, t), me, gen, rest);
        assert MinLoop(b, ms, depth, alpha, beta, best, me, gen, rest) ==
          MinLoop(b, ms[1..], depth, alpha, Min(beta, e), Min(best, e), me, gen, rest);
      } else {
        assert MinLoop(b, ms, depth, alpha, beta, best, me, gen, rest) == Min(best, e);
      }
    }
  }

  /** One child of a minimising node, the mirror image of `MaxStep`. */
  lemma MinStep(alpha: Int32, beta0: Int32, beta: Int32, best: Int32, seen: Int32, e: Int32, t: Int32, later: Int32)
    requires alpha < beta0 && beta == Min(beta0, best) && alpha < beta
    requires seen < beta0 ==> best == seen
    requires seen >= beta0 ==> beta0 <= best <= seen
    requires FailSoft(e, t, alpha, beta)
    ensures Min(Min(seen, t), later) == Min(seen, Min(t, later))
    ensures Min(beta, e) <= alpha ==> FailSoft(Min(best, e), Min(seen, Min(t, later)), alpha, beta0)
    ensures Min(beta, e) > alpha ==>
      && Min(beta, e) == Min(beta0, Min(best, e))
      && (Min(seen, t) < beta0 ==> Min(best, e) == Min(seen, t))
      && (Min(seen, t) >= beta0 ==> beta0 <= Min(best, e) <= Min(seen, t))
  {
  }

  /** With the full window `findBestMove` opens, `minMax` computes exactly
      the minimax value. */
  lemma AlphaBetaIsMinimax(b: Board, depth: nat, maximizing: bool, me: Player, gen: Generator, rest: Board -> Int32)
    ensures AlphaBeta(b, depth, MinValue, MaxValue, maximizing, me, gen, rest) == Minimax(b, depth, maximizing, me, gen, rest)
  {
    AlphaBetaBounds(b, depth, MinValue, MaxValue, maximizing, me, gen, rest);
  }

  // ---------------------------------------------------------------------
  // findBestMove

  /** The value `findBestMove` gives a move of `me`: `minMax` one level
      shallower on the board after the move, full window, opponent to
      move. It is the minimax value of that board. */
  function MoveValue(b: Board, m: Step, depth: nat, me: Player, gen: Generator, rest: Board -> Int32): (v: Int32)
    requires m.from.Valid() && m.to.Valid() && depth >= 1
    ensures v == Minimax(ApplyStep(b, m), depth - 1, false, me, gen, rest)
  {
    ChildBounds(b, m, depth, MinValue, MaxValue, false, me, gen, rest);
    ChildSearch(b, m, depth, MinValue, MaxValue, false, me, gen, rest)
  }

  /** The values of the moves `ms`, in order. */
  function Scores(b: Board, ms: seq<Step>, depth: nat, me: Player, gen: Generator, rest: Board -> Int32): (vs: seq<Int32>)
    requires ValidSteps(ms) && depth >= 1
    ensures |vs| == |ms|
    ensures forall i :: 0 <= i < |ms| ==> vs[i] == MoveValue(b, ms[i], depth, me, gen, rest)
    decreases |ms|
  {
    if |ms| == 0 then [] else [MoveValue(b, ms[0], depth, me, gen, rest)] + Scores(b, ms[1..], depth, me, gen, rest)
  }

  /** `bestValue` after scoring `vs`: `Integer.MIN_VALUE` raised to the
      largest score. */
  function BestValue(vs: seq<Int32>): (v: Int32)
    ensures forall i :: 0 <= i < |vs| ==> vs[i] <= v
    ensures |vs| > 0 ==> exists i :: 0 <= i < |vs| && vs[i] == v
    decreases |vs|
  {
    if |vs| == 0 then MinValue
    else
      var init := vs[..|vs| - 1];
      assert forall i :: 0 <= i < |init| ==> init[i] == vs[i];
      Max(BestValue(init), vs[|vs| - 1])
  }

  /** The moves of `ms` whose score in `vs` is `v`, in their order. */
  function WithValue(ms: seq<Step>, vs: seq<Int32>, v: int): (r: seq<Step>)
    requires |ms| == |vs|
    ensures forall m :: m in r ==> exists i :: 0 <= i < |ms| && ms[i] == m && vs[i] == v
    ensures forall i :: 0 <= i < |ms| && vs[i] == v ==> ms[i] in r
    decreases |ms|
  {
    if |ms| == 0 then []
    else
      var n := |ms| - 1;
      var r := WithValue(ms[..n], vs[..n], v) + (if vs[n] == v then [ms[n]] else []);
      assert forall i :: 0 <= i < n ==> ms[..n][i] == ms[i] && vs[..n][i] == vs[i];
      r
  }

  /** No move scores above the best. */
  lemma {:induction false} NoneAbove(ms: seq<Step>, vs: seq<Int32>, v: int)
    requires |ms| == |vs| && BestValue(vs) < v
    ensures WithValue(ms, vs, v) == []
    decreases |ms|
  {
    if |ms| > 0 {
      var n := |ms| - 1;
      NoneAbove(ms[..n], vs[..n], v);
    }
  }

  /** Scoring move `i`: a higher score becomes the best and restarts the
      best moves with this move, an equal score adds the move to them, and
      a lower score changes neither. */
  lemma PickStep(ms: seq<Step>, vs: seq<Int32>, i: nat)
    requires |ms| == |vs| && i < |ms|
    ensures var best := BestValue(vs[..i]);
      var top := WithValue(ms[..i], vs[..i], best);
      && (vs[i] > best ==>
            BestValue(vs[..i + 1]) == vs[i] && WithValue(ms[..i + 1], vs[..i + 1], vs[i]) == [ms[i]])
      && (vs[i] == best ==>
            BestValue(vs[..i + 1]) == best && WithValue(ms[..i + 1], vs[..i + 1], best) == top + [ms[i]])
      && (vs[i] < best ==>
            BestValue(vs[..i + 1]) == best && WithValue(ms[..i + 1], vs[..i + 1], best) == top)
  {
    var best := BestValue(vs[..i]);
    assert ms[..i + 1][..i] == ms[..i] && vs[..i + 1][..i] == vs[..i];
    if vs[i] > best {
      NoneAbove(ms[..i], vs[..i], vs[i]);
    }
  }

  /** Some move has the best score. */
  lemma TopNonEmpty(ms: seq<Step>, vs: seq<Int32>)
    requires |ms| == |vs| > 0
    ensures |WithValue(ms, vs, BestValue(vs))| > 0
  {
    var k :| 0 <= k < |vs| && vs[k] == BestValue(vs);
    assert ms[k] in WithValue(ms, vs, BestValue(vs));
  }

  /** The loop of `findBestMove` over moves already scored (scoring a
      move plays it on a copy of the board, so scoring them first changes
      nothing): `bestValue` rises to each higher score, `topMoves` restarts
      with a move that raises it and grows with a move that equals it, and
      `pick` (the random draw) chooses among the top moves. */
  method PickBest(moves: seq<Step>, vs: seq<Int32>, pick: nat) returns (chosen: Step, top: seq<Step>)
    requires |moves| == |vs| > 0
    ensures top == WithValue(moves, vs, BestValue(vs))
    ensures |top| > 0 && chosen == top[pick % |top|]
  {
    var bestValue: Int32 := MinValue;
    top := [];
    var i := 0;
    while i < |moves|
      invariant 0 <= i <= |moves|
      invariant bestValue == BestValue(vs[..i])
      invariant top == WithValue(moves[..i], vs[..i], bestValue)
    {
      var value := vs[i];
      PickStep(moves, vs, i);
      if value > bestValue {
        bestValue := value;
        top := [moves[i]];
      } else if value == bestValue {
        top := top + [moves[i]];
      }
      i := i + 1;
    }
    assert moves[..i] == moves && vs[..i] == vs;
    TopNonEmpty(moves, vs);
    chosen := top[pick % |top|];
  }

  /** A move among those of the best score has the highest minimax value
      of all the moves. */
  lemma BestIsMinimax(b: Board, moves: seq<Step>, depth: nat, me: Player, gen: Generator, rest: Board -> Int32,
                      chosen: Step)
    requires ValidSteps(moves) && depth >= 1
    requires var vs := Scores(b, moves, depth, me, gen, rest); chosen in WithValue(moves, vs, BestValue(vs))
    ensures chosen in moves
    ensures forall m :: m in moves ==>
      Minimax(ApplyStep(b, m), depth - 1, false, me, gen, rest) <= Minimax(ApplyStep(b, chosen), depth - 1, false, me, gen, rest)
  {
    var vs := Scores(b, moves, depth, me, gen, rest);
    var j :| 0 <= j < |moves| && moves[j] == chosen && vs[j] == BestValue(vs);
    forall m | m in moves
      ensures Minimax(ApplyStep(b, m), depth - 1, false, me, gen, rest) <= Minimax(ApplyStep(b, chosen), depth - 1, false, me, gen, rest)
    {
      var i :| 0 <= i < |moves| && moves[i] == m;
      assert vs[i] <= vs[j];
      assert vs[i] == MoveValue(b, m, depth, me, gen, rest) && vs[j] == MoveValue(b, chosen, depth, me, gen, rest);
    }
  }

  /** `findBestMove(depth)` with the moves of `gen`: the moves of `me` are
      scored with `minMax` and the best-scoring move chosen. It is a move
      of the highest minimax value. */
  method FindBest(b: Board, me: Player, gen: Generator, rest: Board -> Int32, depth: nat, pick: nat)
      returns (chosen: Step, top: seq<Step>)
    requires depth >= 1 && |gen(b, me)| > 0
    ensures var vs := Scores(b, gen(b, me), depth, me, gen, rest);
      top == WithValue(gen(b, me), vs, BestValue(vs))
    ensures |top| > 0 && chosen == top[pick % |top|]
    ensures chosen in gen(b, me)
    ensures forall m :: m in gen(b, me) ==>
      Minimax(ApplyStep(b, m), depth - 1, false, me, gen, rest) <=
      Minimax(ApplyStep(b, chosen), depth - 1, false, me, gen, rest)
  {
    var moves := gen(b, me);
    var vs := Scores(b, moves, depth, me, gen, rest);
    chosen, top := PickBest(moves, vs, pick);
    BestIsMinimax(b, moves, depth, me, gen, rest, chosen);
  }

  /** The board's own generator, `possiblesMoves`. */
  function BoardMoves(): (gen: Generator)
    ensures forall x: Board, p: Player :: gen(x, p) == PossibleMoves(x, p)
  {
    PossibleMoves
  }

  /** `findBestMove(depth)` on the board's own generator. */
  method FindBestMove(b: Board, me: Player, rest: Board -> Int32, depth: nat, pick: nat)
      returns (chosen: Step, top: seq<Step>)
    requires depth >= 1 && |PossibleMoves(b, me)| > 0
    ensures chosen in PossibleMoves(b, me)
    ensures forall m :: m in PossibleMoves(b, me) ==>
      Minimax(ApplyStep(b, m), depth - 1, false, me, BoardMoves(), rest) <=
      Minimax(ApplyStep(b, chosen), depth - 1, false, me, BoardMoves(), rest)
  {
    chosen, top := FindBest(b, me, BoardMoves(), rest, depth, pick);
  }
}
